=== FILE: README.md ===
# Question answering over a machine-learning knowledge base — a Dafny model

The system answers machine-learning questions from a fixed knowledge base of
question/answer pairs. It has three parts, and this project models the logic of each:

- **Indexing script** (`backend/index.py`). It reads the knowledge base and drops entries
  whose answer is not a non-blank string. It numbers the rest `qa_00001`, `qa_00002`, …
  and writes them to a vector collection in batches of one hundred, with a final short
  batch for what remains.
- **Answer service** (`backend/app.py`). Its `POST /ask` endpoint strips the question and
  rejects it when blank. It then needs the knowledge base to be open and runs a verbatim
  shortcut meant to return a stored answer when the top search hit matches. As written,
  that shortcut raises on every non-empty list of hits, so the request ends in a server
  error (see "Findings"). With no metadata hits, it builds a context from the first three
  documents the search returned, prompts a language model, and keeps the text after the model's last `A:`. The service
  also expands a question into query variants for retrieval.
- **Question page** (`frontend/src/home.tsx`). It holds the session state: question,
  answer, screen text, loading flag, error, source and history. It sends a trimmed
  question and derives an error message from a failed response. It records answered
  questions in a five-entry history and reveals the answer one space-separated token per
  timer tick. It shows at most one of three result panes.

The model is purely functional. Every state is an immutable datatype and every transition
is a function. The loops of the source (the indexing loop and the deduplication loop) are
methods with invariants. Everything the source reaches outside its own code is a
parameter:

- The network reply is a `Session.Reply` value: what came back, not how.
- The timer is a sequence of discrete ticks.
- The embedding model is a function `embed`.
- The vector store is a `search` function, and writes to it are a log of batches.
- The language model is a `generate` function.
- Embedding similarity is a `similar` predicate.

Files, one module each:

| file | module | models |
|---|---|---|
| `maybe.dfy` | `Maybe` | optional values (`None`, a missing JSON key) |
| `seqs.dfy` | `Seqs` | distinctness, `xs[:n]`, concatenation, order-preserving deduplication |
| `text.dfy` | `Text` | `trim()`/`strip()`, ASCII `lower()`, `split()`, `split(sep)`/`join`, substring search, decimal and zero-padded numbers |
| `history.dfy` | `History` | the recent-questions update |
| `typewriter.dfy` | `Typewriter` | the token-by-token reveal |
| `session.dfy` | `Session` | the page state and its transitions |
| `view.dfy` | `View` | result panes, the disabled Generate button, the four ways to ask |
| `retrieval.dfy` | `Retrieval` | query expansion, context, prompt, answer extraction, verbatim shortcut, `/ask` |
| `indexer.dfy` | `Indexer` | the indexing loop, ids, documents, batching and the final flush |

Two behaviours of the code are easy to misread:

- **The reveal is exact.** The code splits on a single literal space (`split(" ")`) and
  keeps empty tokens, so repeated spaces survive and the fully revealed text is the answer
  exactly (`Typewriter.ShownEventuallyWhole`).
- **Only the Generate button is disabled while loading** (home.tsx:173). The
  Ctrl/Cmd+Enter handler (home.tsx:103-108) and the history chips (home.tsx:110-113) call
  `askServer` whatever the loading flag says, so a second question can be sent while one
  is in flight (`View.ShortcutWhileLoading`).

## Model

| member | source | states |
|---|---|---|
| Text.Strip | frontend/src/home.tsx:51 | The trimmed text is a contiguous slice of the input. It neither starts nor ends with a character of the set, and it is empty exactly when every character of the input is in the set. |
| Text.StripDropsOnly | backend/app.py:150 | Stripping removes only characters of the set, and only from the two ends. |
| Text.Lower | backend/app.py:153 | `lower()` keeps the length and leaves no capital letter `A`-`Z`. A capital becomes its small letter (code point + 32) and every other character is unchanged (ASCII letters only). |
| Text.LowerIdempotent | backend/app.py:153 | Lower-casing twice is the same as lower-casing once. |
| Text.WordsCoverText | backend/app.py:157 | The words of `split()` are non-empty, contain no whitespace, and together hold exactly the input's non-whitespace characters in order. |
| Text.WordsAroundSeparator | backend/app.py:157 | A whitespace character splits the words: the words of `a`, a separator, then `b` are the words of `a` followed by the words of `b`. So no word runs across whitespace, which fixes the word count that is compared with 3. |
| Text.WordsOfWord | backend/app.py:157 | A non-empty text without whitespace is exactly one word. |
| Text.Split | backend/app.py:144 | Splitting on a separator yields at least one piece and no piece contains the separator. It yields a single piece exactly when the separator does not occur. |
| Text.JoinAppend | backend/app.py:116 | Joining two non-empty lists of pieces laid end to end puts exactly one separator between their joins. With `Text.JoinSingle` (one piece joins to itself) this fixes `sep.join` piece by piece. |
| Text.SplitJoin | frontend/src/home.tsx:34 | Joining the pieces of `split(sep)` with `sep` gives back the original text. |
| Text.DecimalValue | backend/index.py:43 | The decimal spelling of a number consists of digits that read back as that number. |
| Text.ZeroPadValue | backend/index.py:43 | Left-padding digits with zeros (`{n:05d}`) does not change the number they spell. |
| Seqs.Dedup | backend/app.py:164-169 | The order-preserving deduplication has no repeats and the same members as its input. It is no longer than its input and keeps the first element first. |
| Seqs.DedupOrder | backend/app.py:164-169 | The deduplication lists elements of its input in the order of their first occurrences. |
| Seqs.DedupInOrder | backend/app.py:164-169 | The `seen`/`uniq` loop computes exactly that deduplication. |
| History.Without | frontend/src/home.tsx:86 | The filter keeps exactly the entries different from the question. It drops at least one entry when the question was listed, and none otherwise. |
| History.WithoutAppend | frontend/src/home.tsx:86 | Filtering two lists laid end to end filters each and keeps them in order. Together with the one-entry case this fixes the filter's result entry by entry. |
| History.Record | frontend/src/home.tsx:85-88 | The new history has between 1 and 5 entries and starts with the question. The question does not occur again later. The later entries are a prefix of the old history without the question, cut so the total is at most five. |
| History.RecordKeepsDistinct | frontend/src/home.tsx:85-88 | A history without repeats stays without repeats after an update. |
| History.RecordExistingQuestion | frontend/src/home.tsx:85-88 | Re-asking a listed question moves it to the front. The other entries keep their relative order, so the length and the set of entries stay the same. |
| History.RecordNewQuestion | frontend/src/home.tsx:85-88 | A new question is put in front, and the oldest entry is dropped once five are listed. |
| Typewriter.Start | frontend/src/home.tsx:31-35 | An empty answer starts no reveal. Any other answer starts one with an empty screen, over tokens that join back to the answer. |
| Typewriter.Tick | frontend/src/home.tsx:36-46 | A tick stops the interval exactly when no token is left. Otherwise it advances by one token and keeps the screen equal to the tokens shown so far, joined by spaces. |
| Typewriter.PlayShowsMoreTokens | frontend/src/home.tsx:36-46 | From a screen that shows the first i tokens, k ticks show the first min(i+k, n). The interval is cleared exactly when more than n-i ticks have fired. |
| Typewriter.ShownIsFirstTokens | frontend/src/home.tsx:31-48 | After k ticks the screen shows the first min(k, n) tokens of `answer.split(" ")`, joined by single spaces. |
| Typewriter.ShownEventuallyWhole | frontend/src/home.tsx:31-48 | After at least n ticks the screen shows the answer exactly. |
| Typewriter.ShownIsPrefixOfAnswer | frontend/src/home.tsx:31-48 | At every tick the screen shows a prefix of the answer. |
| Session.ErrorMessage | frontend/src/home.tsx:72-77 | A failed response's message is never empty. It is the non-empty `detail` if there is one, else the non-empty raw text, else `HTTP <status>`. |
| Session.Interpret | frontend/src/home.tsx:67-91 | The reply is classified as follows. A non-ok response fails with its error message. An ok response with a non-empty `answer` succeeds with that answer and its `source`, or `lm` if none is given. An ok response without an answer fails with "Empty answer from server.". A transport error fails with its own message. |
| Session.SetFullAnswer | frontend/src/home.tsx:31-48 | Storing the same answer changes nothing, so a running reveal continues. Storing a different non-empty answer restarts the reveal from an empty screen; storing the empty answer stops the reveal and leaves the screen as it was. Either way only the answer, screen and timer change. |
| Session.Submit | frontend/src/home.tsx:50-58 | A question that trims to nothing sends nothing and changes nothing. Otherwise the trimmed question is sent, loading starts, and answer, screen, error and source are cleared. The page invariant is preserved. |
| Session.Complete | frontend/src/home.tsx:80-95 | Loading always ends. A failure changes only the error, to the failure's message. A success stores the answer and source, leaves the error alone, records the question in the history, and keeps the page invariant. |
| Session.Tick | frontend/src/home.tsx:36-46 | A tick changes only the screen and the timer, and keeps the page invariant. That invariant includes that the screen shows a prefix of the current answer. |
| Session.TicksFollowTypewriter | frontend/src/home.tsx:36-46 | k ticks of the page show what k ticks of the typewriter show, and touch nothing else. |
| Session.SubmitThenAnswer | frontend/src/home.tsx:50-88 | Once a question is answered, loading is over and no error is shown. The answer and source are stored, the question heads the history, and k ticks later the screen shows the first k tokens. |
| Session.SubmitThenFail | frontend/src/home.tsx:89-95 | Once a question fails, loading is over and the error holds the message. The history is unchanged, and answer, screen and source stay cleared with no reveal running. |
| Session.EmptyAnswerFails | frontend/src/home.tsx:80-81 | An ok response without a non-empty answer fails with the fixed message and records nothing. |
| Session.UnparsedFailureLikeNoDetail | frontend/src/home.tsx:69-77 | A failed response whose body is not JSON gets the same message as a JSON body without `detail`. |
| View.Panes | frontend/src/home.tsx:221-255 | No contract of its own: each pane is rendered under its own condition. `View.AtMostOnePane` characterises it. |
| View.SubmitDisabled | frontend/src/home.tsx:173 | No contract of its own: the button is disabled while loading or while the trimmed question is empty. `View.ClickGenerate` characterises it. |
| View.AtMostOnePane | frontend/src/home.tsx:221-255 | At most one result pane is shown. None is shown exactly when the page is idle with neither error nor answer. |
| View.ClickGenerate | frontend/src/home.tsx:173 | The button sends a request exactly when it is enabled, that is when not loading and the trimmed question is non-empty. It never sends while loading. |
| View.Shortcut | frontend/src/home.tsx:103-108 | Ctrl/Cmd+Enter sends exactly when the trimmed question is non-empty. |
| View.PickHistory | frontend/src/home.tsx:110-113 | A history chip puts its question in the text area and sends it exactly when it is non-blank. |
| View.Retry | frontend/src/home.tsx:233-243 | "Try again", shown only with the error pane, sends the trimmed typed question exactly when the Generate button would be enabled. |
| View.ShortcutWhileLoading | frontend/src/home.tsx:103-108 | With a request in flight and a non-blank question the button is disabled, yet the shortcut sends another request. |
| View.RetryOnlyWhenIdle | frontend/src/home.tsx:233-243 | The error pane with its "Try again" button is only shown when idle. |
| View.LoadingAfterSubmit | frontend/src/home.tsx:54 | After a question is sent, exactly the loading pane is shown. |
| View.PaneAfterCompletion | frontend/src/home.tsx:233-255 | After completion (the `catch` at home.tsx:89-91 stores any failure's message), exactly the answer pane is shown for an answer. A failure shows exactly the error pane when its message is non-empty, which a failed response's message always is. A thrown error with an empty message leaves the area empty. |
| View.AnsweredByModelExample | frontend/src/home.tsx:50-88 | "What is Machine Learning?" answered by the model is sent trimmed. It becomes the only history entry, the answer pane is shown, and the footer names the language model. |
| View.ServerErrorExample | frontend/src/home.tsx:75-77 | A 500 response with a `detail` shows that detail in the error pane and leaves the history alone. |
| Retrieval.ExpandQueries | backend/app.py:148-169 | The variants are empty exactly when the stripped input (None counts as empty) is empty. Otherwise the first variant is the stripped input and the normalised form is among them. There are no repeats and at most six variants. The variants are exactly the input, its normalised form and, only for a query of at most three words, the four definition phrasings. They come in the order of their first occurrence in that candidate list. |
| Retrieval.MetaBlocks | backend/app.py:107-111 | There is one `Q:/A:` block for each entry with a non-empty answer, and one for no other entry. Every block starts with `Q`. |
| Retrieval.MetaBlocksAppend | backend/app.py:107-111 | The blocks of two lists of entries laid end to end are the blocks of each, in order. With `Retrieval.MetaBlocksSingle` (one block exactly for an entry with an answer) this fixes the block list entry by entry. |
| Retrieval.DocBlocks | backend/app.py:112-115 | There is one `Doc:` block for each non-empty document, and one for no other document. |
| Retrieval.DocBlocksAppend | backend/app.py:112-115 | The blocks of two lists of documents laid end to end are the blocks of each, in order. With `Retrieval.DocBlocksSingle` (one block exactly for a non-empty document) this fixes the block list document by document. |
| Retrieval.ContextBlocks | backend/app.py:104-116 | At most `max_items` blocks are built. They come from the first `max_items` entries when any of those has an answer, else from the first `max_items` documents. There are none exactly when nothing among those qualifies. |
| Retrieval.BuildContext | backend/app.py:116 | The blocks joined with `\n\n` (see `Text.JoinAppend`) are empty exactly when there are no blocks. Otherwise the context starts with the whole first block, so with its `Q` or `D`. |
| Retrieval.ContextBlankIffNothingQualifies | backend/app.py:104-116 | The joined context is blank after stripping exactly when it is empty. That happens exactly when no entry among the first three has an answer and no document among them has text. |
| Retrieval.Prompt | backend/app.py:119-126 | The prompt is the fixed instruction, the context verbatim, then `\n\nQ: <question>\nA:`. |
| Retrieval.AnswerFromGeneration | backend/app.py:144 | The answer neither starts nor ends with whitespace. Without an `A:` in the output it is the whole output, stripped. `Retrieval.AnswerIsTextAfterLastMarker` gives the other case. |
| Retrieval.AnswerIsTextAfterLastMarker | backend/app.py:144 | When the output contains `A:`, the answer is the text after its last occurrence, stripped. |
| Retrieval.LastMarkerUnique | backend/app.py:144 | Only one position ends the last occurrence of `A:`. |
| Retrieval.EchoedPromptYieldsContinuation | backend/app.py:144 | An output that echoes the prompt and continues without another `A:` yields exactly the continuation, stripped. |
| Retrieval.VerbatimAsWritten | backend/app.py:78-92 | The steps as written are modelled: the rebinding of `top` to the whole list of hits, then the question lookup on it, which raises for a list. The dict check on the first hit always passes, because every hit is a `Meta`, so it has no branch. The result is a raise on every non-empty list of hits, and no shortcut on an empty one. |
| Retrieval.VerbatimIfConfident | backend/app.py:78-101 | The corrected shortcut never raises, and gives no shortcut without hits. When the top hit's question is non-empty after normalising and matches up to case and surrounding spaces or question marks, it returns that hit's answer, and so it does when the questions are rated similar. It returns the top hit's answer only in those two cases. |
| Retrieval.AsWrittenRaisesOnExactMatch | backend/app.py:86-90 | An entry asked for by its own question raises as written, where the corrected shortcut returns its answer. |
| Retrieval.Ask | backend/app.py:231-274 | With the corrected shortcut: a blank question gives 400 "Question cannot be empty", and only a blank question does. With the knowledge base closed a non-blank question gives 503, and the endpoint's own code never answers 500. Every answer is for the stripped, non-empty question and comes from `verbatim` or `lm`. A verbatim answer is the top hit's non-empty stored answer and reports no context. A model answer is what the model generated for the prompt built from the first three hits, with a post-processed result, and it reports the context's non-zero length. |
| Retrieval.AskAsWritten | backend/app.py:231-274 | With the shortcut as written: 400 exactly for a blank question and 503 with the knowledge base closed, as before. Any other question that finds a hit gets 500, and without hits the endpoint behaves like the corrected one. |
| Retrieval.ExactQuestionAnsweredVerbatim | backend/app.py:254-257 | A question with no surrounding whitespace whose normalised form is non-empty, that equals the top hit's stored question up to case, and whose hit has an answer, gets that answer back verbatim. |
| Retrieval.AskWithoutContext | backend/app.py:259-263 | Without a verbatim answer, the endpoint gives 503 "No relevant information…" exactly when no entry among the first three hits has an answer and no document among them has text. |
| Indexer.Accepted | backend/index.py:33-35 | The accepted pairs are no more than the entries. `Indexer.AcceptedMembers` and `Indexer.ExpectedStep` characterise which pairs they are and their order. |
| Indexer.AcceptedMembers | backend/index.py:33-35 | A pair is indexed exactly when some entry carries it with a string answer that is not blank. |
| Indexer.Expected | backend/index.py:30-48 | The k-th row has id `qa_` followed by k+1 zero-padded to five digits, the question's embedding, the document `Q: …\nA: …`, and the pair as metadata. Skipped entries consume no number. |
| Indexer.ExpectedStep | backend/index.py:33-48 | Each entry of the file adds one row, numbered after the rows before it, exactly when it is indexable. |
| Indexer.Append | backend/index.py:43-53 | Appending a row keeps the four lists aligned and short of a full batch. A batch of exactly 100 is written when one fills up, and the rows handed over grow by exactly that row. |
| Indexer.Flush | backend/index.py:55-57 | The final flush writes the pending rows as one batch only when there are some. All batches concatenate to the rows handed over. Each batch has 1 to 100 rows, all but the last have 100, and there are ceil(rows/100) of them. |
| Indexer.BuildIndex | backend/index.py:29-59 | The batches written concatenate to exactly the accepted pairs' rows, in file order and numbered from 1. Each batch has 1 to 100 rows and all but the last have 100. The reported count is the number of accepted pairs. |
| Indexer.Id | backend/index.py:43 | An id is `qa_` followed by at least five characters. `Indexer.IdValue` and `Indexer.IdsDistinct` characterise the digits. |
| Indexer.IdValue | backend/index.py:43 | An id is `qa_` followed by digits that spell the counter. |
| Indexer.IdsDistinct | backend/index.py:31-48 | Different counters give different ids. |
| Indexer.FirstId | backend/index.py:31-43 | The first row's id is `qa_00001`. |

## Left out

- Network, parsing and JSON:
  - The HTTP request, `res.text()` and `JSON.parse` (home.tsx:61-70) are left out, because they are browser I/O. A reply is an input value holding an ok flag, a status, the raw text and, when the text parsed, its `detail`/`answer`/`source` fields.
  - A parsed body whose `detail`, `answer` or `source` is not a string, or that is JSON `null`, is left out. JavaScript's `||`/`??` would pass a non-string value through. For a `null` body, `?.detail` (home.tsx:76) gives `undefined`, but on an ok response `payload.answer` (home.tsx:81) throws a `TypeError` whose message becomes the error. The model's fields are optional strings.
  - `catch` of a non-`Error` value ("Unknown error", home.tsx:90) is left out, because the modelled request only fails with a message.
- Timers and the reveal:
  - The 35 ms timer period and `clearInterval` cleanup are left out as browser timing. Ticks are discrete steps, and clearing the interval is `timer := None`.
  - The reveal updater race is left out. The state updater at home.tsx:43 reads the loop index `i` that line 45 increments; if React defers the updater, the separator check sees the incremented index. The model gives the evident intent: the first k tokens, joined by single spaces. React's scheduling is not modelled.
- Browser side effects and presentation:
  - Copy to clipboard, the toast and the copy label (home.tsx:115-125) are left out as browser side effects.
  - The `console.error` log of a failed request (home.tsx:92) is left out as a logging side effect; the error it logs is the one `Complete` stores.
  - The 60-character chip label (home.tsx:213) and all markup and styling are left out as presentation.
- View.SourceLabel: the footer text (home.tsx:282) is a display string and carries no contract.
- Retrieval.Ask: uses the corrected shortcut from the Findings table, so the endpoint's own code never answers 500. The endpoint as written is `Retrieval.AskAsWritten`, which answers 500 to every non-blank question that finds a hit.
- Text.Lower: folds ASCII letters only. Python's `str.lower()` also folds non-ASCII letters, and its full Unicode case mapping is out of reach here.
- Models and the vector store:
  - Loading the embedding and language models, embedding text, and the vector store are left out as foreign libraries and persistent I/O. They appear as the parameters `embed`, `search`, `similar` and `generate`. Writes to the collection are the returned list of batches. The parameters are total functions. Exceptions from the foreign calls at app.py:247 and app.py:266 are not modelled; those calls run outside any try, and the framework answers 500. The same holds for `_multi_query_retrieve`, called at app.py:238, whose sort at app.py:209 compares the hit dictionaries when two scores tie.
  - Deleting the old store and `json.load` of the file (index.py:11-27) are left out as I/O. The knowledge base is the sequence of its key/value pairs in file order; a duplicate JSON key, which `json.load` resolves to its last value, is not modelled.
  - `_cos`, the 0.87 threshold and the embedding step of the shortcut (app.py:56-62, 93-100) are left out as floating-point numerics. Their verdict, including "false when embedding fails", is the boolean `similar`.
  - `_query_chroma` (app.py:65-75) is not part of this model. It is the `search` parameter. At line 74 it filters the outer list-of-lists that the store returns, which would leave the metadata list empty; `search` may return any hits.
  - `_multi_query_retrieve` (app.py:172-222) is left out, because it rests on float scores, and `ask` overwrites its result at app.py:247 anyway.
  - The language model's truncation to 1024 tokens and its decoding (app.py:129-143) are left out. The output is `generate(prompt)`.
- Other endpoints and files:
  - Request validation by the web framework is left out. `Retrieval.Ask` receives the `text` field.
  - `/test-retrieval`, `/health` and `/` (app.py:277-321) are left out as diagnostics.
  - `frontend/src/App.tsx`, `frontend/src/not-found.tsx` and `frontend/vite.config.ts` are left out as routing and configuration.
  - The two print lines of the indexing script (index.py:59-60) are left out as output. `BuildIndex` returns the count the first one prints.

## Findings

| source | as written | input that shows it | evidently intended | confidence | as-written member | corrected member |
|---|---|---|---|---|---|---|
| backend/app.py:88-90 | After checking that the top hit `metas[0]` is a dict, line 88 rebinds `top = metas` to the whole list. Line 90 then calls `top.get(...)` on a list, which raises `AttributeError`, so every non-empty list of hits ends the request with a server error. | `_verbatim_if_confident("What is ML?", [{"question": "What is ML?", "answer": "ML is..."}], None)` | `top` stays the first hit. An exact match (up to case and surrounding spaces or `?`) returns its stored answer, and so does a similar-enough question; otherwise there is no shortcut. | high, not executed | Retrieval.VerbatimAsWritten, Retrieval.AsWrittenRaisesOnExactMatch, Retrieval.AskAsWritten | Retrieval.VerbatimIfConfident, Retrieval.ExactQuestionAnsweredVerbatim, Retrieval.Ask |

=== FILE: history.dfy ===
/**
 * The client's list of recent questions: the most recent first, each question at most
 * once, never more than five entries.
 */
module History {
  import opened Seqs

  /** The longest history the client keeps. */
  const Capacity: nat := 5

  /** `h` without the entries equal to `q`, the others in their order (the `filter` of the update). */
  function Without(h: seq<string>, q: string): (r: seq<string>)
    ensures forall x :: x in r <==> x in h && x != q
    ensures |r| <= |h|
    ensures q in h ==> |r| < |h|
    ensures q !in h ==> r == h
  {
    if h == [] then [] else (if h[0] == q then [] else [h[0]]) + Without(h[1..], q)
  }

  /** Dropping a question from two lists laid end to end drops it from each, keeping the order. */
  lemma {:induction false} WithoutAppend(a: seq<string>, b: seq<string>, q: string)
    ensures Without(a + b, q) == Without(a, q) + Without(b, q)
  {
    if a != [] {
      var head: seq<string> := if a[0] == q then [] else [a[0]];
      assert (a + b)[0] == a[0] && (a + b)[1..] == a[1..] + b;
      WithoutAppend(a[1..], b, q);
      assert Without(a + b, q) == head + Without(a[1..] + b, q);
      assert Without(a, q) == head + Without(a[1..], q);
    } else {
      assert a + b == b;
    }
  }

  /** On a single entry, `Without` drops it exactly when it is `q`. */
  lemma WithoutSingle(x: string, q: string)
    ensures Without([x], q) == if x == q then [] else [x]
  {
    assert [x][1..] == [];
  }

  /** The history after `q` has been answered: `q` in front, its older copy dropped, cut to five. */
  function Record(h: seq<string>, q: string): (r: seq<string>)
    ensures 1 <= |r| <= Capacity
    ensures r[0] == q
    ensures q !in r[1..]
    ensures r[1..] <= Without(h, q)
    ensures |r| == if 1 + |Without(h, q)| < Capacity then 1 + |Without(h, q)| else Capacity
  {
    var next := [q] + Without(h, q);
    assert next[1..] == Without(h, q);
    if |next| <= Capacity then next else next[..Capacity]
  }

  /** Dropping one question from a history without repeats leaves one entry fewer and no repeats. */
  lemma {:induction false} WithoutDistinct(h: seq<string>, q: string)
    requires Distinct(h)
    ensures Distinct(Without(h, q))
    ensures q in h ==> |Without(h, q)| == |h| - 1
  {
    if h != [] {
      var rest := Without(h[1..], q);
      WithoutDistinct(h[1..], q);
      if h[0] != q {
        assert h[0] !in h[1..];
        assert h[0] !in rest;
        assert Without(h, q) == [h[0]] + rest;
      } else {
        assert q !in h[1..];
      }
    }
  }

  /** A history without repeats stays without repeats after a question is recorded. */
  lemma RecordKeepsDistinct(h: seq<string>, q: string)
    ensures Distinct(h) ==> Distinct(Record(h, q))
  {
    if !Distinct(h) {
      return;
    }
    WithoutDistinct(h, q);
    var r := Record(h, q);
    var w := Without(h, q);
    forall i, j | 0 <= i < j < |r|
      ensures r[i] != r[j]
    {
      if i == 0 {
        assert r[j] == r[1..][j - 1];
      } else {
        var tail := r[1..];
        assert tail <= w;
        assert r[i] == tail[i - 1] == w[i - 1];
        assert r[j] == tail[j - 1] == w[j - 1];
      }
    }
  }

  /** Asking a question that is already listed moves it to the front; the list keeps its length and entries. */
  lemma RecordExistingQuestion(h: seq<string>, q: string, i: nat)
    requires Distinct(h) && |h| <= Capacity && i < |h| && h[i] == q
    ensures Record(h, q) == [q] + h[..i] + h[i + 1..]
    ensures |Record(h, q)| == |h|
    ensures forall x :: x in Record(h, q) <==> x in h
  {
    var before, after := h[..i], h[i + 1..];
    assert h == before + [q] + after;
    forall m | 0 <= m < |before|
      ensures before[m] != q
    {
      assert before[m] == h[m];
    }
    forall m | 0 <= m < |after|
      ensures after[m] != q
    {
      assert after[m] == h[i + 1 + m];
    }
    WithoutAppend(before + [q], after, q);
    WithoutAppend(before, [q], q);
    WithoutSingle(q, q);
    var w := Without(h, q);
    assert w == before + after;
    assert Record(h, q) == [q] + w;
  }

  /** Asking a new question adds it in front and drops the oldest entry once five are listed. */
  lemma RecordNewQuestion(h: seq<string>, q: string)
    requires q !in h
    ensures Record(h, q) == ([q] + h)[..if |h| < Capacity then |h| + 1 else Capacity]
  {
  }
}

=== FILE: indexer.dfy ===
/**
 * The indexing script: every knowledge-base entry whose answer is a non-blank string
 * becomes one row of the vector collection (an id, the question's embedding, a document
 * holding question and answer, and the pair as metadata), written in batches of at most
 * one hundred rows. The embedding model is a parameter; the collection is the log of
 * the batches written to it.
 */
module Indexer {
  import opened Seqs
  import Text

  /** Rows are written to the collection once this many are pending. */
  const BatchSize: nat := 100

  /** Width of the zero-padded counter in a row id. */
  const IdDigits: nat := 5

  /** An answer as the knowledge-base file holds it: a string, or any other JSON value. */
  datatype Json = JString(s: string) | JOther

  /** The metadata stored with a row. */
  datatype Metadata = Metadata(question: string, answer: string)

  /** One row of the collection; `E` is whatever the embedding model returns. */
  datatype Row<E> = Row(id: string, embedding: E, document: string, metadata: Metadata)

  /** Only a string answer with something besides whitespace is indexed. */
  predicate Indexable(answer: Json) {
    answer.JString? && Text.Strip(answer.s, Text.PyWhitespace) != []
  }

  /** The entries that are indexed, in file order, as question/answer pairs. */
  function Accepted(kb: seq<(string, Json)>): (r: seq<(string, string)>)
    ensures |r| <= |kb|
  {
    if kb == [] then []
    else
      var e := kb[|kb| - 1];
      Accepted(kb[..|kb| - 1]) + if Indexable(e.1) then [(e.0, e.1.s)] else []
  }

  /** A pair is indexed exactly when some entry of the file carries it with an indexable answer. */
  lemma {:induction false} AcceptedMembers(kb: seq<(string, Json)>)
    ensures forall p :: p in Accepted(kb) ==> exists k :: 0 <= k < |kb| && Indexable(kb[k].1) && p == (kb[k].0, kb[k].1.s)
    ensures forall k :: 0 <= k < |kb| && Indexable(kb[k].1) ==> (kb[k].0, kb[k].1.s) in Accepted(kb)
  {
    if kb != [] {
      var init := kb[..|kb| - 1];
      AcceptedMembers(init);
      assert forall k :: 0 <= k < |init| ==> init[k] == kb[k];
    }
  }

  /** The id of the `n`-th indexed entry: "qa_" and `n` padded with zeros to five digits. */
  function Id(n: nat): (r: string)
    ensures |r| >= 3 + IdDigits && r[..3] == "qa_"
  {
    "qa_" + Text.ZeroPad(Text.Decimal(n), IdDigits)
  }

  /** The stored document: both the question and the answer, for a fallback that reads text. */
  function Document(question: string, answer: string): string {
    "Q: " + question + "\nA: " + answer
  }

  /** The row for the `n`-th indexed pair; the embedding is that of the question alone. */
  function Entry<E>(n: nat, question: string, answer: string, embed: string -> E): Row<E> {
    Row(Id(n), embed(question), Document(question, answer), Metadata(question, answer))
  }

  /** The rows the collection should end up with: the accepted pairs numbered from 1. */
  function Expected<E>(kb: seq<(string, Json)>, embed: string -> E): (r: seq<Row<E>>)
    ensures |r| == |Accepted(kb)|
    ensures forall k :: 0 <= k < |r| ==>
      r[k] == Entry(k + 1, Accepted(kb)[k].0, Accepted(kb)[k].1, embed)
  {
    Numbered(Accepted(kb), embed)
  }

  /** The rows for `pairs`, numbered from 1. */
  function Numbered<E>(pairs: seq<(string, string)>, embed: string -> E): (r: seq<Row<E>>)
    ensures |r| == |pairs|
    ensures forall k :: 0 <= k < |r| ==> r[k] == Entry(k + 1, pairs[k].0, pairs[k].1, embed)
  {
    seq(|pairs|, k requires 0 <= k < |pairs| => Entry(k + 1, pairs[k].0, pairs[k].1, embed))
  }

  lemma NumberedSnoc<E>(pairs: seq<(string, string)>, p: (string, string), embed: string -> E)
    ensures Numbered(pairs + [p], embed) == Numbered(pairs, embed) + [Entry(|pairs| + 1, p.0, p.1, embed)]
  {
    assert forall k :: 0 <= k < |pairs| ==> (pairs + [p])[k] == pairs[k];
  }

  /** One more entry of the file adds one row, numbered after the others, exactly when it is indexable. */
  lemma ExpectedStep<E>(kb: seq<(string, Json)>, i: nat, embed: string -> E)
    requires i < |kb|
    ensures |Accepted(kb[..i + 1])| == |Accepted(kb[..i])| + if Indexable(kb[i].1) then 1 else 0
    ensures Expected(kb[..i + 1], embed) ==
      Expected(kb[..i], embed) + if Indexable(kb[i].1) then [Entry(|Accepted(kb[..i])| + 1, kb[i].0, kb[i].1.s, embed)] else []
  {
    assert kb[..i + 1][..i] == kb[..i];
    var a := Accepted(kb[..i]);
    if Indexable(kb[i].1) {
      assert Accepted(kb[..i + 1]) == a + [(kb[i].0, kb[i].1.s)];
      NumberedSnoc(a, (kb[i].0, kb[i].1.s), embed);
    } else {
      assert Accepted(kb[..i + 1]) == a;
    }
  }

  /** The rows `collection.add` stores from its four parallel lists, paired up by position. */
  function Zip<E>(ids: seq<string>, embeddings: seq<E>, documents: seq<string>, metadatas: seq<Metadata>): (r: seq<Row<E>>)
    requires |ids| == |embeddings| == |documents| == |metadatas|
    ensures |r| == |ids|
    ensures forall k :: 0 <= k < |r| ==> r[k] == Row(ids[k], embeddings[k], documents[k], metadatas[k])
  {
    seq(|ids|, k requires 0 <= k < |ids| => Row(ids[k], embeddings[k], documents[k], metadatas[k]))
  }

  /** Appending one value to each of the four lists appends one row. */
  lemma ZipSnoc<E>(ids: seq<string>, embeddings: seq<E>, documents: seq<string>, metadatas: seq<Metadata>, r: Row<E>)
    requires |ids| == |embeddings| == |documents| == |metadatas|
    ensures Zip(ids + [r.id], embeddings + [r.embedding], documents + [r.document], metadatas + [r.metadata])
         == Zip(ids, embeddings, documents, metadatas) + [r]
  {
  }

  /** The batches written so far and the four lists of rows still pending. */
  datatype Batcher<E> = Batcher(
    written: seq<seq<Row<E>>>,
    ids: seq<string>,
    embeddings: seq<E>,
    documents: seq<string>,
    metadatas: seq<Metadata>)
  {
    /** The lists are aligned and short of a batch, and every batch written is full. */
    predicate Ok() {
      && |ids| == |embeddings| == |documents| == |metadatas| < BatchSize
      && (forall k :: 0 <= k < |written| ==> |written[k]| == BatchSize)
      && |Concat(written)| == BatchSize * |written|
    }

    /** Every row handed over so far: those written, then those pending. */
    function Rows(): seq<Row<E>>
      requires Ok()
    {
      Concat(written) + Zip(ids, embeddings, documents, metadatas)
    }
  }

  /**
   * Appending a row to the four lists, then writing them as one batch and starting afresh
   * once they hold a full batch.
   */
  method Append<E>(b: Batcher<E>, row: Row<E>) returns (r: Batcher<E>)
    requires b.Ok()
    ensures r.Ok() && r.Rows() == b.Rows() + [row]
    ensures |r.written| == |b.written| + if |b.ids| + 1 == BatchSize then 1 else 0
  {
    ZipSnoc(b.ids, b.embeddings, b.documents, b.metadatas, row);
    var ids := b.ids + [row.id];
    var embeddings := b.embeddings + [row.embedding];
    var documents := b.documents + [row.document];
    var metadatas := b.metadatas + [row.metadata];
    if |ids| >= BatchSize {
      var batch := Zip(ids, embeddings, documents, metadatas);
      ConcatSnoc(b.written, batch);
      r := Batcher(b.written + [batch], [], [], [], []);
      assert Zip(r.ids, r.embeddings, r.documents, r.metadatas) == [];
    } else {
      r := Batcher(b.written, ids, embeddings, documents, metadatas);
    }
  }

  /**
   * The final flush: whatever is still pending is written as one last, short batch, and
   * nothing is written when nothing is pending.
   */
  function Flush<E>(b: Batcher<E>): (writes: seq<seq<Row<E>>>)
    requires b.Ok()
    ensures Concat(writes) == b.Rows()
    ensures forall k :: 0 <= k < |writes| ==> 1 <= |writes[k]| <= BatchSize
    ensures forall k :: 0 <= k < |writes| - 1 ==> |writes[k]| == BatchSize
    ensures |writes| == (|b.Rows()| + BatchSize - 1) / BatchSize
  {
    if b.ids == [] then
      assert Zip(b.ids, b.embeddings, b.documents, b.metadatas) == [];
      b.written
    else
      var rest := Zip(b.ids, b.embeddings, b.documents, b.metadatas);
      ConcatSnoc(b.written, rest);
      b.written + [rest]
  }

  /**
   * The indexing loop and the final flush. Returns the batches written to the collection, in
   * order, and the count the script reports at the end.
   */
  method BuildIndex<E>(kb: seq<(string, Json)>, embed: string -> E) returns (writes: seq<seq<Row<E>>>, reported: int)
    ensures Concat(writes) == Expected(kb, embed)
    ensures forall k :: 0 <= k < |writes| ==> 1 <= |writes[k]| <= BatchSize
    ensures forall k :: 0 <= k < |writes| - 1 ==> |writes[k]| == BatchSize
    ensures |writes| == (|Accepted(kb)| + BatchSize - 1) / BatchSize
    ensures reported == |Accepted(kb)|
  {
    var b: Batcher<E> := Batcher([], [], [], [], []);
    var counter := 1;
    for i := 0 to |kb|
      invariant b.Ok()
      invariant counter == |Accepted(kb[..i])| + 1
      invariant b.Rows() == Expected(kb[..i], embed)
    {
      var (question, answer) := kb[i];
      ExpectedStep(kb, i, embed);
      if !Indexable(answer) {
        continue;
      }
      b := Append(b, Entry(counter, question, answer.s, embed));
      counter := counter + 1;
    }
    assert kb[..|kb|] == kb;
    writes := Flush(b);
    reported := counter - 1;
  }

  /** The counter can be read back from an id: the digits after "qa_" spell it. */
  lemma IdValue(n: nat)
    ensures |Id(n)| >= 3 && Id(n)[..3] == "qa_"
    ensures Text.IsDigits(Id(n)[3..]) && Text.Value(Id(n)[3..]) == n
  {
    assert Id(n)[3..] == Text.ZeroPad(Text.Decimal(n), IdDigits);
    Text.ZeroPadValue(Text.Decimal(n), IdDigits);
    Text.DecimalValue(n);
  }

  /** No two rows share an id. */
  lemma IdsDistinct(m: nat, n: nat)
    requires m != n
    ensures Id(m) != Id(n)
  {
    IdValue(m);
    IdValue(n);
  }

  /** The first row's id. */
  lemma FirstId()
    ensures Id(1) == "qa_00001"
  {
  }
}

=== FILE: maybe.dfy ===
/** An optional value: a missing JSON field, an absent search result, a timer that is not running. */
module Maybe {

  datatype Option<+T> = None | Some(value: T) {

    /** The value held, or `default` when there is none. */
    function GetOr(default: T): T {
      match this
      case Some(v) => v
      case None => default
    }
  }
}

=== FILE: retrieval.dfy ===
/**
 * The answer service's string logic: expanding a question into query variants,
 * building the context from search hits, the generation prompt, extracting the answer
 * from the model's output, and the checks of the `/ask` endpoint. The vector store,
 * the embedding model and the language model are parameters (`Backend`).
 */
module Retrieval {
  import opened Maybe
  import opened Seqs
  import Text

  // ---------------------------------------------------------------- query expansion

  /** The characters stripped from both ends of the lower-cased question. */
  const Punctuation: iset<char> := iset{' ', '?', '!', '.', ',', ';', ':'}

  /** A normalised question of at most this many words counts as a bare topic. */
  const MaxTopicWords: nat := 3

  /** The question as the expansion reads it: missing input is empty, whitespace is stripped. */
  function Query(userText: Option<string>): string {
    Text.Strip(userText.GetOr(""), Text.PyWhitespace)
  }

  /** Lower-cased, with punctuation and spaces stripped from both ends. */
  function Normalise(q: string): string {
    Text.Strip(Text.Lower(q), Punctuation)
  }

  /** A question of at most three whitespace-separated words, probably a topic name. */
  predicate IsTopic(qlc: string) {
    |Text.Words(qlc, Text.PyWhitespace)| <= MaxTopicWords
  }

  /** The definition-style phrasings added for a topic. */
  function DefinitionVariants(qlc: string): seq<string> {
    ["what is " + qlc + "?", "define " + qlc, "definition of " + qlc, "explain " + qlc]
  }

  /**
   * Variants of a question for retrieval: the stripped question, its normalised form and,
   * for a topic, the four definition-style phrasings; duplicates dropped, first occurrence
   * kept.
   */
  method ExpandQueries(userText: Option<string>) returns (r: seq<string>)
    ensures Distinct(r) && |r| <= 2 + |DefinitionVariants("")|
    ensures r == [] <==> Query(userText) == []
    ensures r != [] ==> r[0] == Query(userText) && Normalise(Query(userText)) in r
    ensures r != [] ==> forall v :: v in r <==> IsCandidate(Query(userText), v)
    ensures InFirstOccurrenceOrder(r, Phrasings(Query(userText), Normalise(Query(userText)), IsTopic(Normalise(Query(userText)))))
  {
    var q := Query(userText);
    if q == [] {
      return [];
    }
    var qlc := Normalise(q);
    var p := Phrasings(q, qlc, IsTopic(qlc));
    r := DedupInOrder(p);
    DedupOrder(p);
    assert forall v :: v in r <==> v in p;
    assert forall v :: v in p <==> IsCandidate(q, v);
  }

  /** The phrasings in the order they are tried: the question, its normalised form, then the definition variants for a topic. */
  function Phrasings(q: string, qlc: string, topic: bool): (v: seq<string>)
    ensures |v| <= 2 + |DefinitionVariants("")|
    ensures v != [] && v[0] == q && qlc in v
    ensures forall x :: x in v <==> x == q || x == qlc || (topic && x in DefinitionVariants(qlc))
  {
    if topic then [q, qlc] + DefinitionVariants(qlc) else [q, qlc]
  }

  /**
   * The phrasings a non-empty question is searched under: itself, its normalised form and,
   * when that form is a topic, the four definition-style variants.
   */
  ghost predicate IsCandidate(q: string, v: string) {
    v == q || v == Normalise(q) || (IsTopic(Normalise(q)) && v in DefinitionVariants(Normalise(q)))
  }

  // ---------------------------------------------------------------- context

  /** The metadata stored with a knowledge-base entry; a key may be missing. */
  datatype Meta = Meta(question: Option<string>, answer: Option<string>)

  /** A field's text, empty when the key is missing (`m.get(key) or ""`). */
  function Field(v: Option<string>): string {
    v.GetOr("")
  }

  /** The entry has an answer to offer. */
  predicate HasAnswer(m: Meta) {
    Field(m.answer) != ""
  }

  function QABlock(m: Meta): string {
    "Q: " + Field(m.question) + "\nA: " + Field(m.answer)
  }

  function DocBlock(d: string): string {
    "Doc: " + d
  }

  /** One question/answer block for each entry with an answer, in order. */
  function MetaBlocks(metas: seq<Meta>): (r: seq<string>)
    ensures |r| <= |metas|
    ensures r == [] <==> forall k :: 0 <= k < |metas| ==> !HasAnswer(metas[k])
    ensures forall b :: b in r ==> exists k :: 0 <= k < |metas| && HasAnswer(metas[k]) && b == QABlock(metas[k])
    ensures forall k :: 0 <= k < |metas| && HasAnswer(metas[k]) ==> QABlock(metas[k]) in r
    ensures forall b :: b in r ==> b != [] && b[0] == 'Q'
  {
    if metas == [] then []
    else
      var rest := MetaBlocks(metas[1..]);
      assert forall k :: 1 <= k < |metas| ==> metas[k] == metas[1..][k - 1];
      (if HasAnswer(metas[0]) then [QABlock(metas[0])] else []) + rest
  }

  /** One document block for each non-empty document, in order. */
  function DocBlocks(docs: seq<string>): (r: seq<string>)
    ensures |r| <= |docs|
    ensures r == [] <==> forall k :: 0 <= k < |docs| ==> docs[k] == ""
    ensures forall b :: b in r ==> exists k :: 0 <= k < |docs| && docs[k] != "" && b == DocBlock(docs[k])
    ensures forall k :: 0 <= k < |docs| && docs[k] != "" ==> DocBlock(docs[k]) in r
    ensures forall b :: b in r ==> b != [] && b[0] == 'D'
  {
    if docs == [] then []
    else
      var rest := DocBlocks(docs[1..]);
      assert forall k :: 1 <= k < |docs| ==> docs[k] == docs[1..][k - 1];
      (if docs[0] != "" then [DocBlock(docs[0])] else []) + rest
  }

  /** Blocks of entries laid end to end are the blocks of each part, in order. */
  lemma {:induction false} MetaBlocksAppend(a: seq<Meta>, b: seq<Meta>)
    ensures MetaBlocks(a + b) == MetaBlocks(a) + MetaBlocks(b)
  {
    if a != [] {
      var head: seq<string> := if HasAnswer(a[0]) then [QABlock(a[0])] else [];
      assert (a + b)[0] == a[0] && (a + b)[1..] == a[1..] + b;
      MetaBlocksAppend(a[1..], b);
      assert MetaBlocks(a + b) == head + MetaBlocks(a[1..] + b);
    } else {
      assert a + b == b;
    }
  }

  /** A single entry gives its block exactly when it has an answer. */
  lemma MetaBlocksSingle(m: Meta)
    ensures MetaBlocks([m]) == if HasAnswer(m) then [QABlock(m)] else []
  {
    assert [m][1..] == [];
  }

  /** Blocks of documents laid end to end are the blocks of each part, in order. */
  lemma {:induction false} DocBlocksAppend(a: seq<string>, b: seq<string>)
    ensures DocBlocks(a + b) == DocBlocks(a) + DocBlocks(b)
  {
    if a != [] {
      var head: seq<string> := if a[0] != "" then [DocBlock(a[0])] else [];
      assert (a + b)[0] == a[0] && (a + b)[1..] == a[1..] + b;
      DocBlocksAppend(a[1..], b);
      assert DocBlocks(a + b) == head + DocBlocks(a[1..] + b);
    } else {
      assert a + b == b;
    }
  }

  /** A single document gives its block exactly when it is non-empty. */
  lemma DocBlocksSingle(d: string)
    ensures DocBlocks([d]) == if d != "" then [DocBlock(d)] else []
  {
    assert [d][1..] == [];
  }

  /**
   * The blocks of the context: from the first `maxItems` entries those with an answer; only
   * when none has one, from the first `maxItems` documents those that are non-empty.
   */
  function ContextBlocks(metas: seq<Meta>, docs: seq<string>, maxItems: nat): (r: seq<string>)
    ensures |r| <= maxItems
    ensures (exists k :: 0 <= k < |Take(metas, maxItems)| && HasAnswer(metas[k])) ==> r == MetaBlocks(Take(metas, maxItems))
    ensures (forall k :: 0 <= k < |Take(metas, maxItems)| ==> !HasAnswer(metas[k])) ==> r == DocBlocks(Take(docs, maxItems))
    ensures r == [] <==>
      && (forall k :: 0 <= k < |Take(metas, maxItems)| ==> !HasAnswer(metas[k]))
      && (forall k :: 0 <= k < |Take(docs, maxItems)| ==> docs[k] == "")
    ensures forall b :: b in r ==> b != [] && (b[0] == 'Q' || b[0] == 'D')
  {
    var blocks := MetaBlocks(Take(metas, maxItems));
    if blocks == [] && docs != [] then DocBlocks(Take(docs, maxItems)) else blocks
  }

  /** The context handed to the model: the blocks separated by blank lines. */
  function BuildContext(metas: seq<Meta>, docs: seq<string>, maxItems: nat): (r: string)
    ensures r == [] <==> ContextBlocks(metas, docs, maxItems) == []
    ensures r != [] ==> r[0] == 'Q' || r[0] == 'D'
    ensures ContextBlocks(metas, docs, maxItems) != [] ==> ContextBlocks(metas, docs, maxItems)[0] <= r
  {
    var blocks := ContextBlocks(metas, docs, maxItems);
    JoinOfBlocks(blocks, "\n\n");
    Text.Join(blocks, "\n\n")
  }

  /** Blocks that each start with a letter join to nothing exactly when there are none, else to text that starts with the first block. */
  lemma JoinOfBlocks(blocks: seq<string>, sep: string)
    requires forall b :: b in blocks ==> b != [] && (b[0] == 'Q' || b[0] == 'D')
    ensures blocks == [] ==> Text.Join(blocks, sep) == []
    ensures blocks != [] ==> Text.Join(blocks, sep) != [] && (Text.Join(blocks, sep)[0] == 'Q' || Text.Join(blocks, sep)[0] == 'D')
    ensures blocks != [] ==> blocks[0] <= Text.Join(blocks, sep)
  {
    if blocks != [] {
      assert blocks[0] in blocks;
      JoinStartsWithFirst(blocks, sep);
      Text.JoinPrefix(blocks, 1, sep);
      assert blocks[..1] == [blocks[0]];
      Text.JoinSingle(blocks[0], sep);
    }
  }

  lemma {:induction false} JoinStartsWithFirst(parts: seq<string>, sep: string)
    requires parts != [] && parts[0] != []
    ensures Text.Join(parts, sep) != [] && Text.Join(parts, sep)[0] == parts[0][0]
  {
  }

  /**
   * The context is blank (empty after stripping whitespace) exactly when it is empty, and
   * that is exactly when no entry among the first `maxItems` has an answer and no document
   * among the first `maxItems` has text.
   */
  lemma ContextBlankIffNothingQualifies(metas: seq<Meta>, docs: seq<string>, maxItems: nat)
    ensures Text.Strip(BuildContext(metas, docs, maxItems), Text.PyWhitespace) == []
        <==> BuildContext(metas, docs, maxItems) == []
    ensures BuildContext(metas, docs, maxItems) == [] <==>
      && (forall k :: 0 <= k < |Take(metas, maxItems)| ==> !HasAnswer(metas[k]))
      && (forall k :: 0 <= k < |Take(docs, maxItems)| ==> docs[k] == "")
  {
    var blocks := ContextBlocks(metas, docs, maxItems);
    var c := BuildContext(metas, docs, maxItems);
    if blocks != [] {
      assert blocks[0] in blocks;
      NotBlank(c);
    }
  }

  /** Text that starts with a letter is not blank. */
  lemma NotBlank(c: string)
    requires c != [] && (c[0] == 'Q' || c[0] == 'D')
    ensures Text.Strip(c, Text.PyWhitespace) != []
  {
    assert c[0] !in Text.PyWhitespace;
  }

  // ---------------------------------------------------------------- prompt and answer

  /** The fixed instruction that opens every prompt. */
  const Instruction: string :=
    "Copy the answer text exactly as it appears after 'A:'. "
    + "Do not add or remove words. If the context doesn't contain an answer, say \"I don't know based on the provided knowledge.\".\n\n"

  /** The marker after which the model writes its answer. */
  const Marker: string := "A:"

  /** The prompt: the instruction, the context, a blank line, then the question awaiting its answer. */
  function Prompt(context: string, question: string): (p: string)
    ensures |p| == |Instruction| + |context| + |"\n\nQ: " + question + "\n" + Marker|
    ensures p[..|Instruction|] == Instruction
    ensures p[|Instruction|..|Instruction| + |context|] == context
    ensures p[|Instruction| + |context|..] == "\n\nQ: " + question + "\n" + Marker
  {
    Instruction + context + "\n\n" + "Q: " + question + "\nA:"
  }

  /** The answer read from the model's output: the text after the last marker if there is one, else all of it, stripped. */
  function AnswerFromGeneration(text: string): (r: string)
    ensures r == [] || (!Text.IsPySpace(r[0]) && !Text.IsPySpace(r[|r| - 1]))
    ensures !Text.Contains(text, Marker) ==> r == Text.Strip(text, Text.PyWhitespace)
  {
    if Text.Contains(text, Marker) then Text.Strip(Last(Text.Split(text, Marker)), Text.PyWhitespace)
    else Text.Strip(text, Text.PyWhitespace)
  }

  /** The marker ends at index `k` of `text` and does not occur after it. */
  predicate LastMarkerEndsAt(text: string, k: nat) {
    2 <= k <= |text| && Text.MatchAt(text, Marker, k - 2) && !Text.Contains(text[k..], Marker)
  }

  lemma MatchInSuffix(text: string, k: nat, j: nat)
    requires k <= j && Text.MatchAt(text, Marker, j)
    ensures Text.Contains(text[k..], Marker)
  {
    assert text[k..][j - k..j - k + 2] == text[j..j + 2];
    assert Text.MatchAt(text[k..], Marker, j - k);
  }

  /** The marker cannot start again at the very next character: its second character is not its first. */
  lemma MarkerNoSelfOverlap(text: string, i: nat)
    requires Text.MatchAt(text, Marker, i)
    ensures !Text.MatchAt(text, Marker, i + 1)
  {
    assert text[i + 1] == text[i..i + 2][1] == ':';
    if i + 3 <= |text| {
      assert text[i + 1..i + 3][0] == text[i + 1];
    }
  }

  /** Only one position can be the end of the last marker. */
  lemma LastMarkerUnique(text: string, k1: nat, k2: nat)
    requires LastMarkerEndsAt(text, k1) && LastMarkerEndsAt(text, k2)
    ensures k1 == k2
  {
    if k1 + 1 == k2 {
      MarkerNoSelfOverlap(text, k1 - 2);
      assert false;
    } else if k2 + 1 == k1 {
      MarkerNoSelfOverlap(text, k2 - 2);
      assert false;
    } else if k1 < k2 {
      MatchInSuffix(text, k1, k2 - 2);
    } else if k2 < k1 {
      MatchInSuffix(text, k2, k1 - 2);
    }
  }

  /**
   * When the output contains the marker, the answer is the text after its last occurrence,
   * stripped of whitespace.
   */
  lemma AnswerIsTextAfterLastMarker(text: string, k: nat)
    requires LastMarkerEndsAt(text, k)
    ensures AnswerFromGeneration(text) == Text.Strip(text[k..], Text.PyWhitespace)
  {
    assert Text.IndexOf(text, Marker).Some?;
    var parts := Text.Split(text, Marker);
    var t := Last(parts);
    var init := parts[..|parts| - 1];
    assert parts == init + [t];
    Text.SplitJoin(text, Marker);
    Text.JoinSnoc(init, t, Marker);
    var k' := |text| - |t|;
    assert text == Text.Join(init, Marker) + Marker + t;
    assert text[k'..] == t;
    assert text[k' - 2..k'] == Marker;
    assert LastMarkerEndsAt(text, k');
    LastMarkerUnique(text, k, k');
  }

  /**
   * The prompt ends with the marker, so an output that echoes the prompt and goes on
   * without another marker yields exactly the continuation, stripped.
   */
  lemma EchoedPromptYieldsContinuation(context: string, question: string, continuation: string)
    requires !Text.Contains(continuation, Marker)
    ensures AnswerFromGeneration(Prompt(context, question) + continuation)
         == Text.Strip(continuation, Text.PyWhitespace)
  {
    var p := Prompt(context, question);
    var text := p + continuation;
    assert text[|p|..] == continuation;
    assert text[|p| - 2..|p|] == p[|p| - 2..] == Marker;
    AnswerIsTextAfterLastMarker(text, |p|);
  }

  // ---------------------------------------------------------------- the verbatim shortcut

  /** How the verbatim shortcut ends: a stored answer to return, no shortcut, or an exception. */
  datatype Shortcut = Direct(answer: Option<string>) | NoShortcut | Raised

  /** The value the shortcut calls `top`: one hit's metadata dictionary, or the whole list of hits. */
  datatype Top = Dict(meta: Meta) | List(metas: seq<Meta>)

  /** The two keys the shortcut looks up. */
  datatype Key = QuestionKey | AnswerKey

  /** `top.get(key)`: the value (`None` for a missing key), or the `AttributeError` of a list. */
  datatype Lookup = Found(value: Option<string>) | AttributeError

  function Get(top: Top, key: Key): Lookup {
    match top
    case List(_) => AttributeError
    case Dict(m) => Found(if key == QuestionKey then m.question else m.answer)
  }

  /** `return top.get("answer")`, an exception propagating to the caller. */
  function ReturnAnswer(top: Top): Shortcut {
    match Get(top, AnswerKey)
    case Found(a) => Direct(a)
    case AttributeError => Raised
  }

  /** The characters stripped from both ends when questions are compared for the shortcut. */
  const QuestionEnds: iset<char> := iset{' ', '?'}

  /** A question as the shortcut compares it: lower-cased, spaces and question marks stripped. */
  function Comparable(q: string): string {
    Text.Strip(Text.Lower(q), QuestionEnds)
  }

  /**
   * The comparison and the similarity test on a given `top`: its question is looked up
   * outside any try block, so an exception there propagates; the similarity test runs
   * inside one (`similar`, false also when the embedding fails), and once the question
   * lookup has succeeded `top` is a dictionary, so nothing in it raises.
   */
  function MatchTop(question: string, top: Top, similar: bool): Shortcut {
    match Get(top, QuestionKey)
    case AttributeError => Raised
    case Found(q) =>
      var topQuestion := Comparable(Field(q));
      if topQuestion != [] && Comparable(question) == topQuestion then ReturnAnswer(top)
      else if similar then ReturnAnswer(top)
      else NoShortcut
  }

  /**
   * The shortcut as written: with no hits there is none; otherwise `top` is rebound to the
   * whole list of hits before the lookups. The check that the first hit is a dictionary
   * always passes here, since every hit is a `Meta`, so it has no branch.
   */
  function VerbatimAsWritten(question: string, metas: seq<Meta>, similar: bool): (r: Shortcut)
    ensures r == Raised <==> metas != []
    ensures r != Raised ==> r == NoShortcut
  {
    if metas == [] then NoShortcut
    else
      var top := List(metas);
      MatchTop(question, top, similar)
  }

  /**
   * The shortcut as evidently intended: the same steps on the top hit itself, which gives
   * its answer when its question, compared without case and surrounding spaces or
   * question marks, is the asked one, or when the embedding model rates the two questions
   * similar enough; otherwise no shortcut.
   */
  function VerbatimIfConfident(question: string, metas: seq<Meta>, similar: bool): (r: Shortcut)
    ensures r != Raised
    ensures metas == [] ==> r == NoShortcut
    ensures metas != [] && Comparable(Field(metas[0].question)) != [] && Comparable(question) == Comparable(Field(metas[0].question))
      ==> r == Direct(metas[0].answer)
    ensures metas != [] && similar ==> r == Direct(metas[0].answer)
    ensures r.Direct? ==> metas != [] && r.answer == metas[0].answer
    ensures r.Direct? ==>
      || similar
      || (Comparable(Field(metas[0].question)) != [] && Comparable(question) == Comparable(Field(metas[0].question)))
  {
    if metas == [] then NoShortcut else MatchTop(question, Dict(metas[0]), similar)
  }

  /**
   * The two differ on every non-empty list of hits: a knowledge-base entry asked for by its
   * own question raises as written, where the intended shortcut returns its stored answer.
   */
  lemma AsWrittenRaisesOnExactMatch(m: Meta)
    requires Comparable(Field(m.question)) != []
    ensures VerbatimAsWritten(Field(m.question), [m], false) == Raised
    ensures VerbatimIfConfident(Field(m.question), [m], false) == Direct(m.answer)
  {
  }

  // ---------------------------------------------------------------- the /ask endpoint

  /** What a search of the knowledge base returns. */
  datatype Hits = Hits(metas: seq<Meta>, docs: seq<string>)

  /**
   * The collaborators the endpoint relies on: whether the collection opened at start-up,
   * the nearest-neighbour search for a question, whether the embedding model rates a
   * question similar enough to a hit's question, and the language model's output for a
   * prompt.
   */
  datatype Backend = Backend(
    available: bool,
    search: string -> Hits,
    similar: (string, Meta) -> bool,
    generate: string -> string)

  /** The endpoint's answer, or the HTTP error it raises. */
  datatype Reply =
    | Answer(question: string, answer: string, source: string, contextChars: Option<nat>)
    | HttpError(status: nat, detail: string)

  /** How many search hits go into the context. */
  const ContextItems: nat := 3

  const EmptyQuestion: string := "Question cannot be empty"
  const KnowledgeBaseUnavailable: string := "Knowledge base unavailable"
  const NothingRelevant: string := "No relevant information found in knowledge base"
  /** The detail of the 500 response the web framework sends for an exception the endpoint does not catch. */
  const InternalError: string := "Internal Server Error"

  /** Which shortcut the endpoint runs. */
  datatype Version = AsWritten | Corrected

  /** The shortcut's verdict for `question` on the hits of a search. */
  function ShortcutFor(version: Version, question: string, hits: Hits, b: Backend): Shortcut {
    var similar := hits.metas != [] && b.similar(question, hits.metas[0]);
    match version
    case AsWritten => VerbatimAsWritten(question, hits.metas, similar)
    case Corrected => VerbatimIfConfident(question, hits.metas, similar)
  }

  /** The shortcut yields a non-empty answer to return. */
  predicate Answers(d: Shortcut) {
    d.Direct? && d.answer.Some? && d.answer.value != ""
  }

  /**
   * `POST /ask` with the given shortcut: rejects a blank question before anything else,
   * then needs the knowledge base; an exception from the shortcut becomes a 500; a
   * non-empty shortcut answer is returned verbatim, and otherwise the model is asked,
   * unless the context built from the first hits is blank.
   */
  function Serve(version: Version, text: string, b: Backend): Reply {
    var question := Text.Strip(text, Text.PyWhitespace);
    if question == [] then HttpError(400, EmptyQuestion)
    else if !b.available then HttpError(503, KnowledgeBaseUnavailable)
    else
      var hits := b.search(question);
      var direct := ShortcutFor(version, question, hits, b);
      if direct.Raised? then HttpError(500, InternalError)
      else if Answers(direct) then Answer(question, direct.answer.value, "verbatim", None)
      else
        var context := BuildContext(hits.metas, hits.docs, ContextItems);
        if Text.Strip(context, Text.PyWhitespace) == [] then HttpError(503, NothingRelevant)
        else
          var answer := AnswerFromGeneration(b.generate(Prompt(context, question)));
          Answer(question, answer, "lm", Some(|context|))
  }

  /** The context the model is given for a question. */
  function ContextFor(question: string, b: Backend): string {
    BuildContext(b.search(question).metas, b.search(question).docs, ContextItems)
  }

  /**
   * The endpoint with the intended shortcut: 400 exactly for a blank question, 503 without
   * the knowledge base, never a 500; a verbatim answer is the top hit's non-empty stored
   * answer, and a model answer is what the model generated for the prompt built from the
   * first three hits, with the context's length reported.
   */
  function Ask(text: string, b: Backend): (r: Reply)
    ensures r == HttpError(400, EmptyQuestion) <==> Text.Strip(text, Text.PyWhitespace) == []
    ensures Text.Strip(text, Text.PyWhitespace) != [] && !b.available ==> r == HttpError(503, KnowledgeBaseUnavailable)
    ensures r.HttpError? ==> r.status != 500
    ensures r.Answer? ==> b.available && r.question == Text.Strip(text, Text.PyWhitespace) && r.question != []
    ensures r.Answer? ==> r.source == "verbatim" || r.source == "lm"
    ensures r.Answer? && r.source == "verbatim" ==>
      && r.answer != [] && r.contextChars.None?
      && b.search(r.question).metas != [] && b.search(r.question).metas[0].answer == Some(r.answer)
    ensures r.Answer? && r.source == "lm" ==>
      && r.contextChars == Some(|ContextFor(r.question, b)|) && |ContextFor(r.question, b)| > 0
      && r.answer == AnswerFromGeneration(b.generate(Prompt(ContextFor(r.question, b), r.question)))
  {
    Serve(Corrected, text, b)
  }

  /**
   * The endpoint as written: any non-blank question that finds a hit in an open knowledge
   * base ends in a 500, and without hits it behaves like the intended endpoint.
   */
  function AskAsWritten(text: string, b: Backend): (r: Reply)
    ensures r == HttpError(400, EmptyQuestion) <==> Text.Strip(text, Text.PyWhitespace) == []
    ensures Text.Strip(text, Text.PyWhitespace) != [] && !b.available ==> r == HttpError(503, KnowledgeBaseUnavailable)
    ensures Text.Strip(text, Text.PyWhitespace) != [] && b.available && b.search(Text.Strip(text, Text.PyWhitespace)).metas != []
      ==> r == HttpError(500, InternalError)
    ensures b.search(Text.Strip(text, Text.PyWhitespace)).metas == [] ==> r == Ask(text, b)
  {
    Serve(AsWritten, text, b)
  }

  /**
   * Asking the top hit's own question, up to case, returns its stored answer verbatim: a
   * question with no surrounding whitespace whose normalised form is non-empty.
   */
  lemma ExactQuestionAnsweredVerbatim(question: string, stored: string, b: Backend)
    requires question != [] && !Text.IsPySpace(question[0]) && !Text.IsPySpace(question[|question| - 1])
    requires Comparable(question) != []
    requires Text.Lower(stored) == Text.Lower(question)
    requires b.available
    requires b.search(question).metas != [] && b.search(question).metas[0].question == Some(stored)
    requires Field(b.search(question).metas[0].answer) != ""
    ensures Ask(question, b) == Answer(question, Field(b.search(question).metas[0].answer), "verbatim", None)
  {
    Text.StripUntouched(question, Text.PyWhitespace);
    assert Comparable(stored) == Comparable(question);
  }

  /**
   * With the knowledge base open and no verbatim answer, the endpoint answers 503 exactly
   * when no entry among the first three hits has an answer and no document among the first
   * three has text.
   */
  lemma AskWithoutContext(text: string, b: Backend)
    requires Text.Strip(text, Text.PyWhitespace) != [] && b.available
    requires var q := Text.Strip(text, Text.PyWhitespace);
             !Answers(ShortcutFor(Corrected, q, b.search(q), b))
    ensures var hits := b.search(Text.Strip(text, Text.PyWhitespace));
            Ask(text, b) == HttpError(503, NothingRelevant) <==>
              && (forall k :: 0 <= k < |Take(hits.metas, ContextItems)| ==> !HasAnswer(hits.metas[k]))
              && (forall k :: 0 <= k < |Take(hits.docs, ContextItems)| ==> hits.docs[k] == "")
  {
    var hits := b.search(Text.Strip(text, Text.PyWhitespace));
    ContextBlankIffNothingQualifies(hits.metas, hits.docs, ContextItems);
  }
}

=== FILE: seqs.dfy ===
/** Generic facts about sequences used by both the client and the back end. */
module Seqs {

  /** No element of `xs` occurs twice. */
  predicate Distinct<T(==)>(xs: seq<T>) {
    forall i, j :: 0 <= i < j < |xs| ==> xs[i] != xs[j]
  }

  function Min(a: nat, b: nat): nat {
    if a < b then a else b
  }

  /** The last element of a non-empty sequence: Python's `xs[-1]`. */
  function Last<T>(xs: seq<T>): T
    requires xs != []
  {
    xs[|xs| - 1]
  }

  /** The first `n` elements, or all of them when there are fewer: Python's `xs[:n]`. */
  function Take<T>(xs: seq<T>, n: nat): (r: seq<T>)
    ensures |r| == Min(n, |xs|)
    ensures r <= xs
  {
    if |xs| <= n then xs else xs[..n]
  }

  lemma AppendAssoc<T>(a: seq<T>, b: seq<T>, c: seq<T>)
    ensures a + (b + c) == (a + b) + c
  {
  }

  /** The elements of `ss` laid end to end. */
  function Concat<T>(ss: seq<seq<T>>): seq<T> {
    if ss == [] then [] else ss[0] + Concat(ss[1..])
  }

  lemma {:induction false} ConcatSnoc<T>(ss: seq<seq<T>>, x: seq<T>)
    ensures Concat(ss + [x]) == Concat(ss) + x
  {
    if ss == [] {
      assert [] + [x] == [x];
    } else {
      assert (ss + [x])[1..] == ss[1..] + [x];
      ConcatSnoc(ss[1..], x);
    }
  }

  /**
   * `vs` with every element after its first occurrence dropped: the first occurrences, in
   * the order they occur.
   */
  function Dedup<T(==,!new)>(vs: seq<T>): (r: seq<T>)
    ensures Distinct(r)
    ensures forall x :: x in r <==> x in vs
    ensures |r| <= |vs|
    ensures vs != [] ==> r != [] && r[0] == vs[0]
  {
    if vs == [] then []
    else
      var d := Dedup(vs[..|vs| - 1]);
      assert forall x :: x in vs <==> x in vs[..|vs| - 1] || x == vs[|vs| - 1];
      if vs[|vs| - 1] in d then d else d + [vs[|vs| - 1]]
  }

  /** The position of the first occurrence of `x` in `vs`. */
  function FirstIndex<T(==)>(vs: seq<T>, x: T): (i: nat)
    requires x in vs
    ensures i < |vs| && vs[i] == x && x !in vs[..i]
  {
    if vs[0] == x then 0
    else
      var j := FirstIndex(vs[1..], x);
      assert vs[..j + 1] == [vs[0]] + vs[1..][..j];
      j + 1
  }

  /** A position holding `x` with no `x` before it is the first occurrence. */
  lemma FirstIndexUnique<T>(vs: seq<T>, x: T, i: nat)
    requires i < |vs| && vs[i] == x && x !in vs[..i]
    ensures FirstIndex(vs, x) == i
  {
    var k := FirstIndex(vs, x);
    forall m | 0 <= m < i
      ensures vs[m] != x
    {
      assert vs[..i][m] == vs[m];
    }
    forall m | 0 <= m < k
      ensures vs[m] != x
    {
      assert vs[..k][m] == vs[m];
    }
  }

  /** Extending a sequence does not move a first occurrence that is already there. */
  lemma FirstIndexPrefix<T>(vs: seq<T>, n: nat, x: T)
    requires n <= |vs| && x in vs[..n]
    ensures FirstIndex(vs, x) == FirstIndex(vs[..n], x)
  {
    var k := FirstIndex(vs[..n], x);
    assert vs[..n][..k] == vs[..k];
    FirstIndexUnique(vs, x, k);
  }

  /** Every element of `r` occurs in `vs`, and `r` lists them in the order they first occur there. */
  ghost predicate InFirstOccurrenceOrder<T>(r: seq<T>, vs: seq<T>) {
    && (forall x :: x in r ==> x in vs)
    && (forall i, j :: 0 <= i < j < |r| ==> FirstIndex(vs, r[i]) < FirstIndex(vs, r[j]))
  }

  /** Deduplication keeps the first occurrences in the order they occur. */
  lemma {:induction false} DedupOrder<T(!new)>(vs: seq<T>)
    ensures InFirstOccurrenceOrder(Dedup(vs), vs)
  {
    if vs != [] {
      var n := |vs| - 1;
      var p := vs[..n];
      var d := Dedup(p);
      DedupOrder(p);
      forall x | x in d
        ensures FirstIndex(vs, x) == FirstIndex(p, x) < n
      {
        FirstIndexPrefix(vs, n, x);
      }
      if vs[n] !in d {
        FirstIndexUnique(vs, vs[n], n);
        var r := d + [vs[n]];
        forall i, j | 0 <= i < j < |r|
          ensures FirstIndex(vs, r[i]) < FirstIndex(vs, r[j])
        {
          assert r[i] in d;
          if j < |d| {
            assert r[j] in d;
          }
        }
      }
    }
  }

  /** The loop the back end uses to deduplicate: a `seen` set next to the list of kept values. */
  method DedupInOrder<T(==,!new)>(variants: seq<T>) returns (uniq: seq<T>)
    ensures uniq == Dedup(variants)
  {
    var seen: set<T> := {};
    uniq := [];
    for i := 0 to |variants|
      invariant uniq == Dedup(variants[..i])
      invariant seen == set x | x in uniq
    {
      var v := variants[i];
      assert variants[..i + 1][..i] == variants[..i];
      if v !in seen {
        uniq := uniq + [v];
        seen := seen + {v};
      }
    }
    assert variants[..|variants|] == variants;
  }
}

=== FILE: session.dfy ===
/**
 * The state of the question page and its transitions: submitting a question, the
 * request completing with an answer or an error, and the ticks of the typewriter
 * timer. The HTTP exchange itself is an input (`Reply`): what came back, not how.
 */
module Session {
  import opened Maybe
  import Text
  import History
  import Seqs
  import Typewriter

  /**
   * The page's state. `timer` is the interval the typewriter effect keeps running while it
   * reveals `fullAnswer`; the page itself holds it in a closure rather than in a state field.
   */
  datatype State = State(
    question: string,
    fullAnswer: string,
    displayed: string,
    isLoading: bool,
    error: string,
    source: string,
    history: seq<string>,
    timer: Option<Typewriter.Timer>)

  /** The page as first rendered. */
  const Initial: State := State("", "", "", false, "", "", [], None)

  /** The fields of a response body that parsed as JSON; an absent field is `None`. */
  datatype Body = Body(detail: Option<string>, answer: Option<string>, source: Option<string>)

  /**
   * What the request to the answer service produced: either the transport failed with an
   * error message, or a response arrived with its ok flag, status, raw text and, when the
   * text parsed as JSON, the fields of interest.
   */
  datatype Reply =
    | NetworkError(message: string)
    | Response(ok: bool, status: nat, text: string, json: Option<Body>)

  /** How a request ended, as the page sees it. */
  datatype Outcome = Answered(answer: string, source: string) | Failed(message: string)

  /** The result of asking: the new state and, when a request goes out, the trimmed question it carries. */
  datatype Submission = Submission(state: State, request: Option<string>)

  const EmptyAnswerMessage: string := "Empty answer from server."

  /** The source recorded when the service names none. */
  const DefaultSource: string := "lm"

  /**
   * What the page keeps true between transitions: a history without repeats and at most
   * five long, a screen that shows a prefix of the answer, and a running reveal that is
   * exactly at its tokens shown so far.
   */
  ghost predicate Valid(s: State) {
    && Seqs.Distinct(s.history)
    && |s.history| <= History.Capacity
    && s.displayed <= s.fullAnswer
    && (s.timer.Some? ==>
          && s.fullAnswer != ""
          && Text.Join(s.timer.value.tokens, " ") == s.fullAnswer
          && Typewriter.Shows(s.timer.value, s.displayed))
  }

  lemma InitialValid()
    ensures Valid(Initial)
  {
  }

  /** JavaScript's `a || b` on two strings. */
  function Or(a: string, b: string): string {
    if a != "" then a else b
  }

  function StatusMessage(status: nat): string {
    "HTTP " + Text.Decimal(status)
  }

  /**
   * The message of a failed response: the body's `detail` when it is a non-empty string,
   * else the raw text when non-empty, else "HTTP <status>". A body that did not parse has
   * no detail.
   */
  function ErrorMessage(status: nat, text: string, json: Option<Body>): (m: string)
    ensures m != ""
    ensures json.Some? && json.value.detail.GetOr("") != "" ==> m == json.value.detail.value
    ensures (json.None? || json.value.detail.GetOr("") == "") && text != "" ==> m == text
    ensures (json.None? || json.value.detail.GetOr("") == "") && text == "" ==> m == StatusMessage(status)
  {
    match json
    case None => Or(text, StatusMessage(status))
    case Some(body) => Or(body.detail.GetOr(""), Or(text, StatusMessage(status)))
  }

  /**
   * What the page makes of a reply: a failed response fails with its message; a successful
   * one needs a non-empty `answer` (a body that did not parse has none) and takes `source`,
   * "lm" when absent; a transport failure fails with its own message.
   */
  function Interpret(reply: Reply): (o: Outcome)
    ensures o.Answered? ==> o.answer != ""
    ensures o.Answered? ==> reply.Response? && reply.ok
    ensures reply.Response? && !reply.ok ==> o == Failed(ErrorMessage(reply.status, reply.text, reply.json))
    ensures reply.Response? ==> o.Failed? ==> o.message != ""
    ensures reply.Response? && reply.ok && reply.json.Some? && reply.json.value.answer.GetOr("") != "" ==>
      o == Answered(reply.json.value.answer.value, reply.json.value.source.GetOr(DefaultSource))
    ensures reply.Response? && reply.ok && (reply.json.None? || reply.json.value.answer.GetOr("") == "") ==>
      o == Failed(EmptyAnswerMessage)
    ensures reply.NetworkError? ==> o == Failed(reply.message)
  {
    match reply
    case NetworkError(message) => Failed(message)
    case Response(ok, status, text, json) =>
      if json.None? && !ok then Failed(Or(text, StatusMessage(status)))
      else if !ok then Failed(ErrorMessage(status, text, json))
      else
        var answer := if json.Some? then json.value.answer.GetOr("") else "";
        if answer == "" then Failed(EmptyAnswerMessage)
        else Answered(answer, json.value.source.GetOr(DefaultSource))
  }

  /**
   * Stores a new full answer. The typewriter effect depends on the full answer only: when it
   * changes, the running interval (if any) is cleared, and a non-empty answer clears the
   * screen and starts a fresh interval.
   */
  function SetFullAnswer(s: State, answer: string): (r: State)
    ensures r.fullAnswer == answer
    ensures answer == s.fullAnswer ==> r == s
    ensures answer != s.fullAnswer ==> r.timer == Typewriter.Start(answer)
    ensures answer != s.fullAnswer && answer != "" ==> r.displayed == ""
    ensures r == s.(fullAnswer := r.fullAnswer, timer := r.timer, displayed := r.displayed)
  {
    if answer == s.fullAnswer then s
    else s.(fullAnswer := answer,
            timer := Typewriter.Start(answer),
            displayed := if answer == "" then s.displayed else "")
  }

  /**
   * Asking a question. Blank input (after trimming) changes nothing and sends nothing;
   * otherwise loading starts, the answer, screen, error and source are cleared and the
   * trimmed question is sent.
   */
  function Submit(s: State, input: string): (r: Submission)
    ensures r.request.None? <==> Text.Strip(input, Text.JsWhitespace) == []
    ensures r.request.None? ==> r.state == s
    ensures r.request.Some? ==> r.request.value == Text.Strip(input, Text.JsWhitespace)
    ensures r.request.Some? && Valid(s) ==>
      r.state == s.(isLoading := true, fullAnswer := "", displayed := "", error := "", source := "", timer := None)
    ensures Valid(s) ==> Valid(r.state)
  {
    var q := Text.Strip(input, Text.JsWhitespace);
    if q == [] then Submission(s, None)
    else Submission(SetFullAnswer(s.(isLoading := true), "").(displayed := "", error := "", source := ""), Some(q))
  }

  /**
   * The request for question `q` completes with `reply`. An answer is stored together with
   * its source and `q` is recorded in the history; a failure stores only its message. Either
   * way loading ends.
   */
  function Complete(s: State, q: string, reply: Reply): (r: State)
    ensures !r.isLoading
    ensures Interpret(reply).Failed? ==> r == s.(error := Interpret(reply).message, isLoading := false)
    ensures Interpret(reply).Answered? ==> r.fullAnswer == Interpret(reply).answer && r.history == History.Record(s.history, q)
    ensures Interpret(reply).Answered? ==> r.source == Interpret(reply).source && r.error == s.error && r.question == s.question
    ensures Valid(s) ==> Valid(r)
  {
    match Interpret(reply)
    case Answered(answer, source) =>
      History.RecordKeepsDistinct(s.history, q);
      SetFullAnswer(s, answer).(source := source, history := History.Record(s.history, q), isLoading := false)
    case Failed(message) =>
      s.(error := message, isLoading := false)
  }

  /** One tick of the typewriter interval; without a running interval nothing happens. */
  function Tick(s: State): (r: State)
    ensures r == s.(timer := r.timer, displayed := r.displayed)
    ensures Valid(s) ==> Valid(r)
  {
    match s.timer
    case None => s
    case Some(t) =>
      match Typewriter.Tick(t, s.displayed)
      case None => s.(timer := None)
      case Some(step) =>
        Text.JoinPrefix(t.tokens, t.next + 1, " ");
        s.(timer := Some(step.0), displayed := step.1)
  }

  /** `k` ticks of the typewriter interval. */
  function Ticks(s: State, k: nat): State
    decreases k
  {
    if k == 0 then s else Ticks(Tick(s), k - 1)
  }

  /** Ticking the page follows the typewriter on its own and touches nothing but the screen and timer. */
  lemma {:induction false} TicksFollowTypewriter(s: State, t: Typewriter.Timer, k: nat)
    requires s.timer == Some(t)
    ensures Ticks(s, k).displayed == Typewriter.Play(t, s.displayed, k).1
    ensures Ticks(s, k).timer == Typewriter.Play(t, s.displayed, k).0
    ensures Ticks(s, k) == s.(timer := Ticks(s, k).timer, displayed := Ticks(s, k).displayed)
    decreases k
  {
    if k > 0 {
      match Typewriter.Tick(t, s.displayed)
      case None =>
        StoppedStaysStopped(Tick(s), k - 1);
      case Some(step) =>
        TicksFollowTypewriter(Tick(s), step.0, k - 1);
    }
  }

  lemma {:induction false} StoppedStaysStopped(s: State, k: nat)
    requires s.timer.None?
    ensures Ticks(s, k) == s
    decreases k
  {
    if k > 0 {
      StoppedStaysStopped(Tick(s), k - 1);
    }
  }

  /**
   * A question answered successfully: loading ends, no error is shown, the answer and its
   * source are stored, the trimmed question heads the history, and `k` ticks later the
   * screen shows the typewriter's first `k` tokens of the answer.
   */
  lemma SubmitThenAnswer(s: State, input: string, reply: Reply, k: nat)
    requires Valid(s)
    requires Text.Strip(input, Text.JsWhitespace) != []
    requires Interpret(reply).Answered?
    ensures var q := Text.Strip(input, Text.JsWhitespace);
            var r := Complete(Submit(s, input).state, q, reply);
            && !r.isLoading && r.error == ""
            && r.fullAnswer == Interpret(reply).answer
            && r.source == Interpret(reply).source
            && r.history == History.Record(s.history, q)
            && r.question == s.question
            && Ticks(r, k).displayed == Typewriter.Shown(r.fullAnswer, k)
            && Ticks(r, k).fullAnswer == r.fullAnswer
  {
    var q := Text.Strip(input, Text.JsWhitespace);
    var r := Complete(Submit(s, input).state, q, reply);
    TicksFollowTypewriter(r, Typewriter.Start(r.fullAnswer).value, k);
  }

  /**
   * A question that fails: loading ends, the error holds the failure's message, and the
   * history, answer and screen stay as the submission left them; no reveal starts.
   */
  lemma SubmitThenFail(s: State, input: string, reply: Reply)
    requires Valid(s)
    requires Text.Strip(input, Text.JsWhitespace) != []
    requires Interpret(reply).Failed?
    ensures var q := Text.Strip(input, Text.JsWhitespace);
            var r := Complete(Submit(s, input).state, q, reply);
            && !r.isLoading
            && r.error == Interpret(reply).message
            && r.history == s.history
            && r.fullAnswer == "" && r.displayed == "" && r.source == ""
            && r.timer.None?
  {
  }

  /** A successful response without a non-empty answer fails with the fixed message and records nothing. */
  lemma EmptyAnswerFails(s: State, q: string, status: nat, text: string, json: Option<Body>)
    requires json.None? || json.value.answer.GetOr("") == ""
    ensures Complete(s, q, Response(true, status, text, json)) == s.(error := EmptyAnswerMessage, isLoading := false)
  {
  }

  /** A failed response whose text is not JSON is reported exactly as a JSON body without `detail` would be. */
  lemma UnparsedFailureLikeNoDetail(status: nat, text: string, answer: Option<string>, source: Option<string>)
    ensures Interpret(Response(false, status, text, None))
         == Interpret(Response(false, status, text, Some(Body(None, answer, source))))
  {
  }
}

=== FILE: text.dfy ===
/**
 * String primitives shared by the client and the back end: trimming, case folding,
 * whitespace tokenising, splitting on a separator, joining, substring search and
 * decimal formatting. Each one is the Dafny counterpart of one JavaScript or Python
 * built-in, with the character sets those built-ins use written out.
 */
module Text {
  import opened Maybe
  import opened Seqs

  /** The characters JavaScript's `String.prototype.trim` removes (WhiteSpace and LineTerminator). */
  predicate IsJsSpace(c: char) {
    || '\t' <= c <= '\r'
    || c == ' ' || c == '\U{00A0}' || c == '\U{1680}'
    || '\U{2000}' <= c <= '\U{200A}'
    || c == '\U{2028}' || c == '\U{2029}' || c == '\U{202F}' || c == '\U{205F}' || c == '\U{3000}'
    || c == '\U{FEFF}'
  }

  /** The characters Python's `str.isspace` accepts; `str.strip()` and `str.split()` use them. */
  predicate IsPySpace(c: char) {
    || '\t' <= c <= '\r'
    || '\U{001C}' <= c <= ' '
    || c == '\U{0085}' || c == '\U{00A0}' || c == '\U{1680}'
    || '\U{2000}' <= c <= '\U{200A}'
    || c == '\U{2028}' || c == '\U{2029}' || c == '\U{202F}' || c == '\U{205F}' || c == '\U{3000}'
  }

  /** The set of `IsJsSpace` characters, as the stripping functions take it. */
  const JsWhitespace: iset<char> := iset c: char | IsJsSpace(c)

  /** The set of `IsPySpace` characters. */
  const PyWhitespace: iset<char> := iset c: char | IsPySpace(c)

  // ---------------------------------------------------------------- stripping

  /** How many leading characters of `s` belong to `cs`. */
  function Lead(s: string, cs: iset<char>): (n: nat)
    ensures n <= |s|
    ensures forall k :: 0 <= k < n ==> s[k] in cs
    ensures n < |s| ==> s[n] !in cs
  {
    if s != [] && s[0] in cs then
      var n := 1 + Lead(s[1..], cs);
      assert forall k :: 1 <= k < n ==> s[k] == s[1..][k - 1];
      n
    else 0
  }

  /** How many trailing characters of `s` belong to `cs`. */
  function Trail(s: string, cs: iset<char>): (n: nat)
    ensures n <= |s|
    ensures forall k :: |s| - n <= k < |s| ==> s[k] in cs
    ensures n < |s| ==> s[|s| - n - 1] !in cs
  {
    if s != [] && s[|s| - 1] in cs then
      var init := s[..|s| - 1];
      var n := 1 + Trail(init, cs);
      assert forall k :: |s| - n <= k < |s| - 1 ==> s[k] == init[k];
      n
    else 0
  }

  /** `s` without its leading characters from `cs`. */
  function StripLeft(s: string, cs: iset<char>): (r: string)
    ensures |r| <= |s| && r == s[|s| - |r|..]
    ensures r != [] ==> r[0] !in cs
    ensures forall k :: 0 <= k < |s| - |r| ==> s[k] in cs
  {
    s[Lead(s, cs)..]
  }

  /**
   * `s` without its leading and trailing characters from `cs`: Python's `str.strip(chars)`;
   * with `JsWhitespace` it is JavaScript's `trim()`, with `PyWhitespace` Python's `strip()`.
   */
  function Strip(s: string, cs: iset<char>): (r: string)
    ensures Lead(s, cs) + |r| <= |s|
    ensures r == s[Lead(s, cs)..Lead(s, cs) + |r|]
    ensures r != [] ==> r[0] !in cs && r[|r| - 1] !in cs
    ensures r == [] <==> forall k :: 0 <= k < |s| ==> s[k] in cs
  {
    var n := Lead(s, cs);
    var t := s[n..];
    var m := Trail(t, cs);
    StripSides(s, cs, n, m);
    s[n..|s| - m]
  }

  /** Dropping `n` leading and then `m` trailing characters of `cs` leaves nothing exactly when all of `s` is in `cs`. */
  lemma StripSides(s: string, cs: iset<char>, n: nat, m: nat)
    requires n <= |s| && m <= |s| - n
    requires forall k :: 0 <= k < n ==> s[k] in cs
    requires n < |s| ==> s[n] !in cs
    requires forall k :: |s| - m <= k < |s| ==> s[k] in cs
    ensures |s| - m == n <==> forall k :: 0 <= k < |s| ==> s[k] in cs
  {
    if |s| - m != n {
      assert s[n] !in cs;
    }
  }

  /** Stripping removes only characters of `cs`, from the front and from the back. */
  lemma StripDropsOnly(s: string, cs: iset<char>)
    ensures forall k :: 0 <= k < Lead(s, cs) ==> s[k] in cs
    ensures forall k :: Lead(s, cs) + |Strip(s, cs)| <= k < |s| ==> s[k] in cs
  {
    var n := Lead(s, cs);
    var t := s[n..];
    var m := Trail(t, cs);
    assert forall k :: |t| - m <= k < |t| ==> t[k] == s[n + k];
  }

  /** Text that neither starts nor ends with a character of `cs` is left as it is. */
  lemma StripUntouched(s: string, cs: iset<char>)
    requires s != [] && s[0] !in cs && s[|s| - 1] !in cs
    ensures Strip(s, cs) == s
  {
  }

  // ---------------------------------------------------------------- case

  /** An ASCII capital letter, the only characters the model folds. */
  predicate IsUpper(c: char) {
    'A' <= c <= 'Z'
  }

  /** Lower-cases the ASCII letters A-Z and leaves every other character alone. */
  function LowerChar(c: char): (d: char)
    ensures !IsUpper(d)
    ensures IsUpper(c) ==> d as int == c as int + 32
    ensures !IsUpper(c) ==> d == c
  {
    if IsUpper(c) then (c as int + 32) as char else c
  }

  /**
   * Python's `str.lower()`, restricted to ASCII letters: no capital is left, a capital
   * becomes its small letter, and every other character stays where it is.
   */
  function Lower(s: string): (r: string)
    ensures |r| == |s|
    ensures forall k :: 0 <= k < |r| ==> !IsUpper(r[k])
    ensures forall k :: 0 <= k < |s| && IsUpper(s[k]) ==> r[k] as int == s[k] as int + 32
    ensures forall k :: 0 <= k < |s| && !IsUpper(s[k]) ==> r[k] == s[k]
  {
    seq(|s|, i requires 0 <= i < |s| => LowerChar(s[i]))
  }

  /** Lower-casing twice changes nothing more. */
  lemma LowerIdempotent(s: string)
    ensures Lower(Lower(s)) == Lower(s)
  {
  }

  // ---------------------------------------------------------------- whitespace words

  /** No character of `w` belongs to `cs`. */
  predicate Avoids(w: string, cs: iset<char>) {
    forall j :: 0 <= j < |w| ==> w[j] !in cs
  }

  /** The characters of `s` outside `cs`, in order. */
  function Keep(s: string, cs: iset<char>): string {
    if s == [] then [] else (if s[0] in cs then [] else [s[0]]) + Keep(s[1..], cs)
  }

  lemma {:induction false} KeepAppend(a: string, b: string, cs: iset<char>)
    ensures Keep(a + b, cs) == Keep(a, cs) + Keep(b, cs)
  {
    if a == [] {
      assert a + b == b;
    } else {
      assert (a + b)[1..] == a[1..] + b;
      KeepAppend(a[1..], b, cs);
    }
  }

  lemma {:induction false} KeepOnlyRemoved(s: string, cs: iset<char>)
    requires forall k :: 0 <= k < |s| ==> s[k] in cs
    ensures Keep(s, cs) == []
  {
    if s != [] {
      KeepOnlyRemoved(s[1..], cs);
    }
  }

  lemma {:induction false} KeepNoneRemoved(s: string, cs: iset<char>)
    requires Avoids(s, cs)
    ensures Keep(s, cs) == s
  {
    if s != [] {
      KeepNoneRemoved(s[1..], cs);
      assert [s[0]] + s[1..] == s;
    }
  }

  /** The longest prefix of `s` with no character of `cs`. */
  function TakeWord(s: string, cs: iset<char>): (r: string)
    ensures |r| <= |s| && r == s[..|r|]
    ensures Avoids(r, cs)
    ensures |r| < |s| ==> s[|r|] in cs
  {
    if s == [] || s[0] in cs then [] else [s[0]] + TakeWord(s[1..], cs)
  }

  /** Python's `str.split()` without a separator: the maximal runs of characters outside `cs`. */
  function Words(s: string, cs: iset<char>): (r: seq<string>)
    ensures forall k :: 0 <= k < |r| ==> r[k] != [] && Avoids(r[k], cs)
    decreases |s|
  {
    var t := StripLeft(s, cs);
    if t == [] then []
    else
      var w := TakeWord(t, cs);
      [w] + Words(t[|w|..], cs)
  }

  /** The words hold exactly the non-separator characters of the text, in order. */
  lemma {:induction false} WordsCoverText(s: string, cs: iset<char>)
    ensures Concat(Words(s, cs)) == Keep(s, cs)
    decreases |s|
  {
    var t := StripLeft(s, cs);
    KeepSkipsLead(s, cs);
    if t != [] {
      var w := TakeWord(t, cs);
      var rest := t[|w|..];
      KeepWordThenRest(t, cs);
      WordsCoverText(rest, cs);
      assert Words(s, cs) == [w] + Words(rest, cs);
      assert ([w] + Words(rest, cs))[1..] == Words(rest, cs);
    }
  }

  /** The count of leading separators is the only one meeting `Lead`'s contract. */
  lemma LeadUnique(s: string, cs: iset<char>, n: nat)
    requires n <= |s|
    requires forall k :: 0 <= k < n ==> s[k] in cs
    requires n < |s| ==> s[n] !in cs
    ensures Lead(s, cs) == n
  {
    var m := Lead(s, cs);
    assert m >= n ==> m == n;
  }

  /** The leading word is the only prefix without separators that is followed by one or ends the text. */
  lemma TakeWordUnique(s: string, cs: iset<char>, n: nat)
    requires n <= |s| && Avoids(s[..n], cs)
    requires n < |s| ==> s[n] in cs
    ensures TakeWord(s, cs) == s[..n]
  {
    var w := TakeWord(s, cs);
    forall k | 0 <= k < n
      ensures s[k] !in cs
    {
      assert s[..n][k] == s[k];
    }
    forall k | 0 <= k < |w|
      ensures s[k] !in cs
    {
      assert w[k] == s[k];
    }
  }

  /** Separators in front of a text do not change its words. */
  lemma WordsSkipSeparators(p: string, s: string, cs: iset<char>)
    requires forall k :: 0 <= k < |p| ==> p[k] in cs
    ensures Words(p + s, cs) == Words(s, cs)
  {
    var n := Lead(s, cs);
    LeadUnique(p + s, cs, |p| + n);
    assert StripLeft(p + s, cs) == StripLeft(s, cs);
  }

  /** A text that starts with a word: that word, then the words of what follows it. */
  lemma WordsStep(x: string, cs: iset<char>)
    requires x != [] && x[0] !in cs
    ensures Words(x, cs) == [TakeWord(x, cs)] + Words(x[|TakeWord(x, cs)|..], cs)
  {
    LeadUnique(x, cs, 0);
  }

  /** Appending a separator and more text does not extend the leading word. */
  lemma TakeWordBeforeSeparator(t: string, c: char, b: string, cs: iset<char>)
    requires c in cs
    ensures TakeWord(t + [c] + b, cs) == TakeWord(t, cs)
  {
    var x := t + [c] + b;
    var w := TakeWord(t, cs);
    assert x[..|w|] == w;
    assert |w| < |t| ==> x[|w|] == t[|w|];
    assert |w| == |t| ==> x[|w|] == c;
    TakeWordUnique(x, cs, |w|);
  }

  lemma SliceBeforeSeparator(t: string, c: char, b: string, n: nat)
    requires n <= |t|
    ensures (t + [c] + b)[n..] == t[n..] + [c] + b
  {
  }

  /**
   * A separator splits the words: the words of `a`, a separator and `b` are the words of
   * `a` followed by the words of `b`; no word runs across the separator.
   */
  lemma {:induction false} WordsAroundSeparator(a: string, c: char, b: string, cs: iset<char>)
    requires c in cs
    ensures Words(a + [c] + b, cs) == Words(a, cs) + Words(b, cs)
    decreases |a|, 1
  {
    var t := StripLeft(a, cs);
    var p := a[..|a| - |t|];
    assert a == p + t;
    assert a + [c] + b == p + (t + [c] + b);
    WordsSkipSeparators(p, t + [c] + b, cs);
    WordsSkipSeparators(p, t, cs);
    if t == [] {
      assert t + [c] + b == [c] + b;
      WordsSkipSeparators([c], b, cs);
      WordsOfSeparators(t, cs);
    } else {
      WordsAroundSeparatorFromWord(t, c, b, cs);
    }
  }

  /** `WordsAroundSeparator` for a text that starts with a word. */
  lemma {:induction false} WordsAroundSeparatorFromWord(t: string, c: char, b: string, cs: iset<char>)
    requires c in cs && t != [] && t[0] !in cs
    ensures Words(t + [c] + b, cs) == Words(t, cs) + Words(b, cs)
    decreases |t|, 0
  {
    var x := t + [c] + b;
    var w := TakeWord(t, cs);
    TakeWordBeforeSeparator(t, c, b, cs);
    assert x[0] == t[0];
    WordsStep(x, cs);
    WordsStep(t, cs);
    var rest := t[|w|..];
    SliceBeforeSeparator(t, c, b, |w|);
    WordsAroundSeparator(rest, c, b, cs);
    var wr, wb := Words(rest, cs), Words(b, cs);
    assert Words(x, cs) == [w] + (wr + wb);
    assert Words(t, cs) == [w] + wr;
    AppendAssoc([w], wr, wb);
  }

  /** A non-empty text without separators is a single word. */
  lemma WordsOfWord(w: string, cs: iset<char>)
    requires w != [] && Avoids(w, cs)
    ensures Words(w, cs) == [w]
  {
    LeadUnique(w, cs, 0);
    assert w[..|w|] == w;
    TakeWordUnique(w, cs, |w|);
    assert w[|w|..] == [];
  }

  /** A text of separators only has no words. */
  lemma WordsOfSeparators(s: string, cs: iset<char>)
    requires forall k :: 0 <= k < |s| ==> s[k] in cs
    ensures Words(s, cs) == []
  {
    LeadUnique(s, cs, |s|);
  }

  /** Leading separators contribute nothing to the kept characters. */
  lemma KeepSkipsLead(s: string, cs: iset<char>)
    ensures Keep(s, cs) == Keep(StripLeft(s, cs), cs)
  {
    var t := StripLeft(s, cs);
    var lead := s[..|s| - |t|];
    assert s == lead + t;
    KeepOnlyRemoved(lead, cs);
    KeepAppend(lead, t, cs);
  }

  /** A leading word is kept whole, followed by what is kept of the rest. */
  lemma KeepWordThenRest(t: string, cs: iset<char>)
    ensures Keep(t, cs) == TakeWord(t, cs) + Keep(t[|TakeWord(t, cs)|..], cs)
  {
    var w := TakeWord(t, cs);
    assert t == w + t[|w|..];
    KeepNoneRemoved(w, cs);
    KeepAppend(w, t[|w|..], cs);
  }

  // ---------------------------------------------------------------- search and split

  /** `pat` occurs in `s` starting at index `i`. */
  predicate MatchAt(s: string, pat: string, i: nat) {
    i + |pat| <= |s| && s[i..i + |pat|] == pat
  }

  lemma MatchShift(s: string, pat: string)
    requires s != []
    ensures forall j: nat :: j >= 1 ==> (MatchAt(s, pat, j) <==> MatchAt(s[1..], pat, j - 1))
  {
    forall j: nat | j >= 1
      ensures MatchAt(s, pat, j) <==> MatchAt(s[1..], pat, j - 1)
    {
      if j + |pat| <= |s| {
        assert s[1..][j - 1..j - 1 + |pat|] == s[j..j + |pat|];
      }
    }
  }

  /** The first index where `pat` occurs in `s`: Python's `str.find`, as an option. */
  function IndexOf(s: string, pat: string): (r: Option<nat>)
    ensures r.Some? ==> MatchAt(s, pat, r.value)
    ensures r.Some? ==> forall j: nat :: j < r.value ==> !MatchAt(s, pat, j)
    ensures r.None? ==> forall j: nat :: !MatchAt(s, pat, j)
    decreases |s|
  {
    if |s| < |pat| then None
    else if s[..|pat|] == pat then Some(0)
    else
      MatchShift(s, pat);
      match IndexOf(s[1..], pat)
      case None => None
      case Some(i) => Some(i + 1)
  }

  /** Python's `pat in s`. */
  predicate Contains(s: string, pat: string) {
    IndexOf(s, pat).Some?
  }

  /** A prefix that ends before the first occurrence has no occurrence of its own. */
  lemma PrefixBeforeFirstMatch(s: string, pat: string, i: nat)
    requires pat != [] && i <= |s|
    requires forall j: nat :: j < i ==> !MatchAt(s, pat, j)
    ensures !Contains(s[..i], pat)
  {
    var p := s[..i];
    if IndexOf(p, pat).Some? {
      var j := IndexOf(p, pat).value;
      assert p[j..j + |pat|] == s[j..j + |pat|];
      assert MatchAt(s, pat, j);
      assert false;
    }
  }

  /**
   * `s` cut at every occurrence of `sep`, scanning left to right: Python's `str.split(sep)`
   * and JavaScript's `split(sep)` for a non-empty separator. Empty pieces are kept.
   */
  function Split(s: string, sep: string): (r: seq<string>)
    requires sep != []
    ensures |r| >= 1
    ensures forall k :: 0 <= k < |r| ==> !Contains(r[k], sep)
    ensures |r| == 1 <==> !Contains(s, sep)
    decreases |s|
  {
    match IndexOf(s, sep)
    case None => [s]
    case Some(i) =>
      PrefixBeforeFirstMatch(s, sep, i);
      [s[..i]] + Split(s[i + |sep|..], sep)
  }

  /** The pieces of `parts` with `sep` between neighbours: Python's `sep.join(parts)`. */
  function Join(parts: seq<string>, sep: string): string {
    if |parts| == 0 then ""
    else if |parts| == 1 then parts[0]
    else parts[0] + sep + Join(parts[1..], sep)
  }

  lemma JoinCons(head: string, tail: seq<string>, sep: string)
    requires tail != []
    ensures Join([head] + tail, sep) == head + sep + Join(tail, sep)
  {
    assert ([head] + tail)[1..] == tail;
  }

  lemma SplitStep(s: string, sep: string, i: nat)
    requires sep != [] && IndexOf(s, sep) == Some(i)
    ensures Split(s, sep) == [s[..i]] + Split(s[i + |sep|..], sep)
    ensures s == s[..i] + sep + s[i + |sep|..]
  {
    assert MatchAt(s, sep, i);
    assert s == s[..i] + s[i..i + |sep|] + s[i + |sep|..];
  }

  /** Joining the pieces of a split gives back the text that was split. */
  lemma {:induction false} SplitJoin(s: string, sep: string)
    requires sep != []
    ensures Join(Split(s, sep), sep) == s
    decreases |s|
  {
    var found := IndexOf(s, sep);
    if found.Some? {
      var i := found.value;
      var rest := s[i + |sep|..];
      SplitStep(s, sep, i);
      JoinCons(s[..i], Split(rest, sep), sep);
      SplitJoin(rest, sep);
    }
  }

  lemma {:induction false} JoinSnoc(parts: seq<string>, x: string, sep: string)
    requires |parts| >= 1
    ensures Join(parts + [x], sep) == Join(parts, sep) + sep + x
    decreases |parts|
  {
    if |parts| == 1 {
      assert (parts + [x])[1..] == [x];
    } else {
      assert (parts + [x])[1..] == parts[1..] + [x];
      JoinSnoc(parts[1..], x, sep);
    }
  }

  /** Joining two non-empty lists of pieces laid end to end puts one separator between their joins. */
  lemma {:induction false} JoinAppend(a: seq<string>, b: seq<string>, sep: string)
    requires a != [] && b != []
    ensures Join(a + b, sep) == Join(a, sep) + sep + Join(b, sep)
    decreases |a|
  {
    if |a| == 1 {
      JoinCons(a[0], b, sep);
      assert a == [a[0]];
    } else {
      assert (a + b)[0] == a[0] && (a + b)[1..] == a[1..] + b;
      JoinAppend(a[1..], b, sep);
    }
  }

  /** A single piece joins to itself. */
  lemma JoinSingle(x: string, sep: string)
    ensures Join([x], sep) == x
  {
  }

  /** Joining the first `k` pieces gives a prefix of joining all of them. */
  lemma {:induction false} JoinPrefix(parts: seq<string>, k: nat, sep: string)
    requires k <= |parts|
    ensures Join(parts[..k], sep) <= Join(parts, sep)
    decreases |parts| - k
  {
    if k == |parts| {
      assert parts[..k] == parts;
    } else {
      JoinPrefix(parts, k + 1, sep);
      if k > 0 {
        assert parts[..k + 1] == parts[..k] + [parts[k]];
        JoinSnoc(parts[..k], parts[k], sep);
      }
    }
  }

  // ---------------------------------------------------------------- decimal numbers

  predicate IsDigits(s: string) {
    forall k :: 0 <= k < |s| ==> '0' <= s[k] <= '9'
  }

  /** The decimal digit for `d`. */
  function DigitChar(d: nat): (c: char)
    requires d < 10
    ensures '0' <= c <= '9' && c as int - '0' as int == d
  {
    ('0' as int + d) as char
  }

  /** The numeric value of a string of decimal digits, leading zeros allowed. */
  function Value(s: string): nat
    requires IsDigits(s)
  {
    if s == [] then 0 else Value(s[..|s| - 1]) * 10 + (s[|s| - 1] as int - '0' as int)
  }

  /** The shortest decimal spelling of `n`, as JavaScript's `${n}` and Python's `str(n)` write it. */
  function Decimal(n: nat): (r: string)
    ensures |r| >= 1 && IsDigits(r)
    decreases n
  {
    if n < 10 then [DigitChar(n)] else Decimal(n / 10) + [DigitChar(n % 10)]
  }

  /** Reading back a formatted number gives the number. */
  lemma {:induction false} DecimalValue(n: nat)
    ensures Value(Decimal(n)) == n
    decreases n
  {
    var d := Decimal(n);
    if n >= 10 {
      DecimalValue(n / 10);
      assert d[..|d| - 1] == Decimal(n / 10);
      assert d[|d| - 1] as int - '0' as int == n % 10;
      assert Value(d) == Value(Decimal(n / 10)) * 10 + n % 10;
    } else {
      assert d[..0] == [];
    }
  }

  /** `n` zero digits. */
  function Zeros(n: nat): (r: string)
    ensures |r| == n && forall k :: 0 <= k < n ==> r[k] == '0'
  {
    seq(n, _ => '0')
  }

  /** `s` left-padded with '0' to at least `width` characters: Python's `{n:05d}` for width 5 and n >= 0. */
  function ZeroPad(s: string, width: nat): (r: string)
    ensures |r| == if |s| < width then width else |s|
    ensures r[|r| - |s|..] == s
    ensures forall k :: 0 <= k < |r| - |s| ==> r[k] == '0'
  {
    if |s| >= width then s else Zeros(width - |s|) + s
  }

  lemma {:induction false} LeadingZeroValue(s: string)
    requires IsDigits(s)
    ensures Value(['0'] + s) == Value(s)
    decreases |s|
  {
    if s != [] {
      assert (['0'] + s)[..|s|] == ['0'] + s[..|s| - 1];
      LeadingZeroValue(s[..|s| - 1]);
    }
  }

  /** Zero digits in front do not change the value the digits spell. */
  lemma {:induction false} ZerosValue(n: nat, s: string)
    requires IsDigits(s)
    ensures IsDigits(Zeros(n) + s) && Value(Zeros(n) + s) == Value(s)
  {
    if n > 0 {
      ZerosValue(n - 1, s);
      assert Zeros(n) + s == ['0'] + (Zeros(n - 1) + s);
      LeadingZeroValue(Zeros(n - 1) + s);
    } else {
      assert Zeros(n) + s == s;
    }
  }

  /** Padding with zeros does not change the value the digits spell. */
  lemma ZeroPadValue(s: string, width: nat)
    requires IsDigits(s)
    ensures IsDigits(ZeroPad(s, width)) && Value(ZeroPad(s, width)) == Value(s)
  {
    if |s| < width {
      ZerosValue(width - |s|, s);
    }
  }
}

=== FILE: typewriter.dfy ===
/**
 * The client's typewriter effect: once a complete answer has arrived it is put on
 * screen one space-separated token per tick of an interval timer.
 */
module Typewriter {
  import opened Maybe
  import Text
  import opened Seqs

  /** A running interval: the tokens of the answer and the index of the next token to show. */
  datatype Timer = Timer(tokens: seq<string>, next: nat)

  /** The answer cut at every single space, empty tokens kept (`fullAnswer.split(" ")`). */
  function Tokens(answer: string): seq<string> {
    Text.Split(answer, " ")
  }

  /** `displayed` is exactly the tokens shown so far, joined with single spaces. */
  ghost predicate Shows(t: Timer, displayed: string) {
    t.next <= |t.tokens| && displayed == Text.Join(t.tokens[..t.next], " ")
  }

  /**
   * The effect run whenever the answer changes. An empty answer starts nothing; any
   * other answer starts an interval at its first token, with the screen cleared.
   */
  function Start(answer: string): (r: Option<Timer>)
    ensures r.None? <==> answer == ""
    ensures r.Some? ==> Shows(r.value, "")
    ensures r.Some? ==> Text.Join(r.value.tokens, " ") == answer
  {
    if answer == "" then None
    else
      Text.SplitJoin(answer, " ");
      Some(Timer(Tokens(answer), 0))
  }

  /**
   * One tick of the interval. While tokens remain, the next one is appended, after a space
   * unless it is the first; once all are shown the interval is cleared (`None`) and the
   * screen stays as it is.
   */
  function Tick(t: Timer, displayed: string): (r: Option<(Timer, string)>)
    ensures r.None? <==> t.next >= |t.tokens|
    ensures r.Some? ==> r.value.0 == Timer(t.tokens, t.next + 1)
    ensures r.Some? && Shows(t, displayed) ==> Shows(r.value.0, r.value.1)
  {
    if t.next >= |t.tokens| then None
    else
      var shown := (if t.next > 0 then displayed + " " else "") + t.tokens[t.next];
      assert t.tokens[..t.next + 1] == t.tokens[..t.next] + [t.tokens[t.next]];
      if t.next > 0 then
        Text.JoinSnoc(t.tokens[..t.next], t.tokens[t.next], " ");
        Some((Timer(t.tokens, t.next + 1), shown))
      else
        Some((Timer(t.tokens, t.next + 1), shown))
  }

  /** The timer (if still running) and the screen after `k` more ticks. */
  function Play(t: Timer, displayed: string, k: nat): (Option<Timer>, string)
    decreases k
  {
    if k == 0 then (Some(t), displayed)
    else
      match Tick(t, displayed)
      case None => (None, displayed)
      case Some(step) => Play(step.0, step.1, k - 1)
  }

  /** The text on screen `k` ticks after `answer` arrived. */
  function Shown(answer: string, k: nat): string {
    match Start(answer)
    case None => ""
    case Some(t) => Play(t, "", k).1
  }

  /**
   * From a screen that shows the first tokens, `k` ticks show `k` more (as far as there are
   * any), and the interval is cleared exactly when a tick finds nothing left to show.
   */
  lemma {:induction false} PlayShowsMoreTokens(t: Timer, displayed: string, k: nat)
    requires Shows(t, displayed)
    ensures Play(t, displayed, k).1 == Text.Join(t.tokens[..Min(t.next + k, |t.tokens|)], " ")
    ensures Play(t, displayed, k).0.None? <==> t.next + k > |t.tokens|
    decreases k
  {
    if k == 0 {
    } else if t.next >= |t.tokens| {
      assert t.next == |t.tokens|;
    } else {
      var step := Tick(t, displayed).value;
      PlayShowsMoreTokens(step.0, step.1, k - 1);
    }
  }

  /** After `k` ticks the screen holds the first min(k, n) tokens of the answer joined by single spaces. */
  lemma ShownIsFirstTokens(answer: string, k: nat)
    ensures Shown(answer, k) == Text.Join(Tokens(answer)[..Min(k, |Tokens(answer)|)], " ")
  {
    if answer != "" {
      PlayShowsMoreTokens(Start(answer).value, "", k);
    } else if k > 0 {
      assert Tokens(answer)[..1] == Tokens(answer);
      Text.SplitJoin(answer, " ");
    }
  }

  /** Once every token has been revealed the screen holds the answer exactly: no space is lost or added. */
  lemma ShownEventuallyWhole(answer: string, k: nat)
    requires k >= |Tokens(answer)|
    ensures Shown(answer, k) == answer
  {
    ShownIsFirstTokens(answer, k);
    assert Tokens(answer)[..|Tokens(answer)|] == Tokens(answer);
    Text.SplitJoin(answer, " ");
  }

  /** At every tick the screen is a prefix of the answer; it never shows text the answer does not start with. */
  lemma ShownIsPrefixOfAnswer(answer: string, k: nat)
    ensures Shown(answer, k) <= answer
  {
    ShownIsFirstTokens(answer, k);
    Text.JoinPrefix(Tokens(answer), Min(k, |Tokens(answer)|), " ");
    Text.SplitJoin(answer, " ");
  }
}

=== FILE: view.dfy ===
/**
 * What the question page shows for a state, and the user actions that start a request:
 * the Generate button, the Ctrl/Cmd+Enter shortcut, a recent-question chip and the
 * "Try again" button of the error pane.
 */
module View {
  import opened Maybe
  import Text
  import Session
  import History

  /** The three panes of the result area. */
  datatype Pane = LoadingPane | ErrorPane | AnswerPane

  /** The panes rendered for `s`; each pane has its own condition in the page. */
  function Panes(s: Session.State): set<Pane> {
    (if s.isLoading then {LoadingPane} else {})
    + (if !s.isLoading && s.error != "" then {ErrorPane} else {})
    + (if !s.isLoading && s.error == "" && s.fullAnswer != "" then {AnswerPane} else {})
  }

  /** The Generate button is disabled while a request is in flight or the trimmed question is empty. */
  predicate SubmitDisabled(s: Session.State) {
    s.isLoading || Text.Strip(s.question, Text.JsWhitespace) == []
  }

  /** The footer of the answer pane naming where the answer came from. */
  function SourceLabel(s: Session.State): string {
    if s.source == "verbatim" then "Knowledge base (exact match)" else "Language model"
  }

  /** The result area never shows two panes at once, and shows none only when idle with nothing to show. */
  lemma AtMostOnePane(s: Session.State)
    ensures |Panes(s)| <= 1
    ensures Panes(s) == {} <==> !s.isLoading && s.error == "" && s.fullAnswer == ""
  {
    if s.isLoading {
      assert Panes(s) == {LoadingPane};
    } else if s.error != "" {
      assert Panes(s) == {ErrorPane};
    } else if s.fullAnswer != "" {
      assert Panes(s) == {AnswerPane};
    } else {
      assert Panes(s) == {};
    }
  }

  /** Clicking Generate: a disabled button does nothing, an enabled one asks the typed question. */
  function ClickGenerate(s: Session.State): (r: Session.Submission)
    ensures r.request.Some? <==> !SubmitDisabled(s)
    ensures r.request.None? ==> r.state == s
    ensures s.isLoading ==> r.request.None?
    ensures r.request.Some? ==> r.request.value == Text.Strip(s.question, Text.JsWhitespace)
  {
    if SubmitDisabled(s) then Session.Submission(s, None) else Session.Submit(s, s.question)
  }

  /** Ctrl/Cmd+Enter in the text area asks the typed question; the handler does not look at the loading flag. */
  function Shortcut(s: Session.State): (r: Session.Submission)
    ensures r.request.Some? <==> Text.Strip(s.question, Text.JsWhitespace) != []
  {
    Session.Submit(s, s.question)
  }

  /** Clicking a recent question puts it in the text area and asks it; chips are never disabled. */
  function PickHistory(s: Session.State, h: string): (r: Session.Submission)
    ensures r.request.Some? <==> Text.Strip(h, Text.JsWhitespace) != []
    ensures r.state.question == h
  {
    Session.Submit(s.(question := h), h)
  }

  /**
   * "Try again" asks the typed question once more. The button exists only on the error
   * pane, so it sends exactly when the Generate button would.
   */
  function Retry(s: Session.State): (r: Session.Submission)
    requires ErrorPane in Panes(s)
    ensures r.request.Some? <==> !SubmitDisabled(s)
    ensures r.request.Some? ==> r.request.value == Text.Strip(s.question, Text.JsWhitespace)
  {
    Session.Submit(s, s.question)
  }

  /** The shortcut sends a second request while one is in flight whenever the text area is not blank. */
  lemma ShortcutWhileLoading(s: Session.State)
    requires s.isLoading && Text.Strip(s.question, Text.JsWhitespace) != []
    ensures SubmitDisabled(s) == true
    ensures Shortcut(s).request.Some?
  {
  }

  /** "Try again" is only on screen with the error pane, so it never overlaps a request in flight. */
  lemma RetryOnlyWhenIdle(s: Session.State)
    requires ErrorPane in Panes(s)
    ensures !s.isLoading
  {
  }

  /** After a question is sent the result area shows exactly the loading pane. */
  lemma LoadingAfterSubmit(s: Session.State, input: string)
    requires Session.Valid(s)
    requires Text.Strip(input, Text.JsWhitespace) != []
    ensures Panes(Session.Submit(s, input).state) == {LoadingPane}
  {
  }

  /**
   * After a request completes the result area shows exactly the answer pane for an answer
   * and exactly the error pane for a failure; a failing response always has a message,
   * while an exception thrown with an empty message leaves the area empty.
   */
  lemma PaneAfterCompletion(s: Session.State, input: string, reply: Session.Reply)
    requires Session.Valid(s)
    requires Text.Strip(input, Text.JsWhitespace) != []
    ensures var r := Session.Complete(Session.Submit(s, input).state, Text.Strip(input, Text.JsWhitespace), reply);
            var o := Session.Interpret(reply);
            Panes(r) == if o.Answered? then {AnswerPane} else if o.message != "" then {ErrorPane} else {}
    ensures reply.Response? && Session.Interpret(reply).Failed? ==> Session.Interpret(reply).message != ""
  {
  }

  /**
   * An example: "What is Machine Learning?" answered by the
   * language model becomes the only recent question and the footer names the model.
   */
  lemma AnsweredByModelExample()
    ensures var s := Session.Initial.(question := "What is Machine Learning?");
            var sent := ClickGenerate(s);
            var reply := Session.Response(true, 200, "{\"answer\": \"ML is...\", \"source\": \"lm\"}", Some(Session.Body(None, Some("ML is..."), Some("lm"))));
            var r := Session.Complete(sent.state, "What is Machine Learning?", reply);
            && sent.request == Some("What is Machine Learning?")
            && r.history == ["What is Machine Learning?"]
            && Panes(r) == {AnswerPane}
            && SourceLabel(r) == "Language model"
  {
    var q := "What is Machine Learning?";
    var s := Session.Initial.(question := q);
    assert q[0] == 'W' && q[|q| - 1] == '?';
    Text.StripUntouched(q, Text.JsWhitespace);
    var sent := ClickGenerate(s);
    assert sent.request == Some(q);
    var reply := Session.Response(true, 200, "{\"answer\": \"ML is...\", \"source\": \"lm\"}", Some(Session.Body(None, Some("ML is..."), Some("lm"))));
    assert Session.Interpret(reply) == Session.Answered("ML is...", "lm");
    var r := Session.Complete(sent.state, q, reply);
    assert r.history == History.Record([], q);
  }

  /** A 500 response whose body carries a `detail` shows that detail and leaves the history alone. */
  lemma ServerErrorExample(s: Session.State)
    requires Session.Valid(s)
    requires Text.Strip(s.question, Text.JsWhitespace) != []
    ensures var sent := ClickGenerate(s.(isLoading := false));
            var body := Session.Body(Some("index unavailable"), None, None);
            var r := Session.Complete(sent.state, sent.request.value, Session.Response(false, 500, "{\"detail\": \"index unavailable\"}", Some(body)));
            && r.error == "index unavailable"
            && r.history == s.history
            && Panes(r) == {ErrorPane}
  {
  }
}
